=== FILE: README.md ===
# MRZ passport codec and triangle classifiers, in Dafny

This project models two small pieces of the SSW567 coursework repository and
proves properties of each.

**The passport machine-readable-zone codec** (`567-Project/MRTD.py`) has three parts:

- **Damm check digit.** `calculate_check_digit` folds the decimal digits of
  a field through the constant 10×10 `DAMM_TABLE` and skips every other
  character. `validate_check_digit` compares that digit with a given one.
- **Decoder.** `decode_mrz` slices two MRZ lines at fixed offsets and
  normalises the filler character `<` in the name. It validates four check
  digits in the order passport number, birth date, expiration date, then
  the combined data. It returns either the nine fields or the first error.
- **Encoder.** `encode_mrz` lays a field mapping out into the same two
  lines. It pads with `<` and cuts each line to 44 characters.

The processor object stores the lines with `scan_mrz` and reads them back
in `decode_mrz`. Here that becomes one pure function,
`Mrz.Decode(line1, line2)`. Its result is a datatype: `MissingData`,
`InvalidFormat`, `ChecksumFailed(field)` or `Valid(record)`. `Mrz.ErrorText`
gives the exact message for each error.

The codec leans on five Python string built-ins. Module `PyStr` models
them on `seq<char>`:

- slicing, which clamps instead of failing;
- `rstrip` and `strip`;
- `ljust`, used only by `encode_mrz`;
- `replace`;
- `split` with no argument and `' '.join`.

`split` is a left-to-right scan that treats the whole set of characters
Python counts as whitespace as separators.

Two facts about the code are proved as they stand:

- **Line 2 is 43 characters, not 44.** The encoder writes
  9+1+3+6+1+1+6+1+14 characters and then the final digit at index 42. The
  decoder reads index 42 as the final digit, so the two agree. An empty
  line gives the missing-data error first. Once both lines are non-empty,
  the decoder fails with the invalid-format error exactly when line 2 is
  shorter than 43. The length of a non-empty line 1 never matters, because
  slicing cannot fail.
  This is `MrzProperties.EncodedLine2Layout` with `Mrz.Decode`.
- **Only one-letter document types other than `<` round-trip.** The encoder
  always writes the type, then a filler, then the country. The decoder's
  `replace('<', '')` erases a type that is itself `<`. The decoder reads the type
  from [0, 2) and the country from [2, 5). A two-letter type therefore
  shifts the country one place right: the default record with type `"PD"`
  decodes with country `"<UT"`. This is
  `MrzProperties.TwoLetterDocumentTypeShiftsCountry`.

**The triangle classifiers** take three integer sides:

- `hw-02a/Triangle.py` `classifyTriangle`.
- Its condensed rewrite, `hw-05/triangle.py` `classify_triangle`.
- `triangle_classifier.py` `classify_triangle`. It has no upper bound on the
  sides and returns a shape word, a space and an optional `"Right"`.

Module `TriangleSpec` states once what each label means, as the predicate
`Classified`. Both `hw` classifiers are proved to meet it, so they are equal
on every integer triple.

The right-triangle test runs before the equal-side tests. Even so, a right
triangle never receives an equal-side label: no right triangle with integer
sides has two equal sides. `TriangleSpec.NoIsoscelesRight` proves this by
descent, which is the irrationality of √2.

## Model

| member | source | states |
|---|---|---|
| Damm.CheckDigit | 567-Project/MRTD.py:147-158 | The result is always one character in '0'..'9'. A field without any decimal digit gives '0'. |
| Damm.Validate | 567-Project/MRTD.py:137-145 | Validation can succeed only when the given check character is a digit. |
| Damm.DiagonalIsZero | 567-Project/MRTD.py:8-19 | Every diagonal entry of the table is 0. |
| Damm.ZeroOnlyOnDiagonal | 567-Project/MRTD.py:8-19 | Moving from state x with digit d gives state 0 exactly when d equals x. |
| Damm.RowInverseCorrect | 567-Project/MRTD.py:8-19 | Each row is a permutation of the digits: the stored inverse row recovers the digit from the new state. |
| Damm.ColumnInverseCorrect | 567-Project/MRTD.py:8-19 | Each column is a permutation: the stored inverse column recovers the old state from the new state. |
| Damm.RowsInjective | 567-Project/MRTD.py:8-19 | From one state, two different digits lead to different states. |
| Damm.ColumnsInjective | 567-Project/MRTD.py:8-19 | One digit leads two different states to different states. |
| Damm.FoldConcat | 567-Project/MRTD.py:151-158 | Folding a + b is folding b from the state reached after a. |
| Damm.NonDigitsKeepState | 567-Project/MRTD.py:152-157 | Characters that are not digits leave the running state unchanged. |
| Damm.FoldSeesOnlyDigits | 567-Project/MRTD.py:151-158 | The fold of a field equals the fold of its digits alone. |
| Damm.SameDigitsSameCheckDigit | 567-Project/MRTD.py:151-158 | Two fields with the same digit sequence have the same check digit, whatever else they hold. |
| Damm.NonDigitIgnored | 567-Project/MRTD.py:156-157 | Inserting one non-digit anywhere in a field, filler included, does not change its check digit. |
| Damm.AppendCheckDigitGivesZero | 567-Project/MRTD.py:151-158 | Appending a field's own check digit and checking again gives '0'. |
| Damm.ValidateIffAppendedChecksToZero | 567-Project/MRTD.py:137-158 | Validation succeeds exactly when the given character is a digit and the field followed by it checks to '0'. |
| Damm.FoldSeparates | 567-Project/MRTD.py:151-158 | Two different states never meet again, whatever string follows. |
| Damm.SubstitutionDetected | 567-Project/MRTD.py:151-158 | Changing any one digit of a field changes its check digit. |
| Damm.KnownCheckDigits | 567-Project/MRTDtest.py:75-188 | "123456789" gives '4' and validates with '4'. "ABCD1234" gives '0'. The empty string gives '0'. |
| PyStr.Slice | 567-Project/MRTD.py:53 | Python slicing: the exact slice when the bounds lie inside the string, the tail from the start when only the end bound is past the end, and empty when the start is at or past the end bound or the string's end. It never fails. |
| PyStr.From | 567-Project/MRTD.py:48 | The open-ended slice `s[i:]` is the bounded slice `s[i:len(s)]`. |
| PyStr.Take | 567-Project/MRTD.py:113 | `s[:n]` is a prefix of s of length min(n, \|s\|). |
| PyStr.LeftJustify | 567-Project/MRTD.py:121 | `ljust`: s followed by fill characters up to width n; s is unchanged when it is already that long. |
| PyStr.ReplaceCharClears | 567-Project/MRTD.py:125 | After replacing a by a different character no a is left, and a string without a comes back unchanged. |
| PyStr.ReplaceCharConcat | 567-Project/MRTD.py:112 | Replacing in a concatenation is concatenating the replaced pieces, which is why replacing over a whole f-string line equals replacing field by field. |
| PyStr.RemoveChar | 567-Project/MRTD.py:46 | `replace(a, '')`: a no longer occurs, and a string without a is unchanged. |
| PyStr.RemoveCharConcat | 567-Project/MRTD.py:46 | Removal works piece by piece: removing from x + y is removing from x, then from y, joined. |
| PyStr.RemoveCharSingle | 567-Project/MRTD.py:46 | One character is dropped exactly when it is the removed one, so with RemoveCharConcat every other character is kept, in order. |
| PyStr.ReplacePairWithoutPairs | 567-Project/MRTD.py:49 | `replace('<<', ' ')` leaves a string with no two adjacent fillers unchanged. |
| PyStr.ReplacePairFromTheLeft | 567-Project/MRTD.py:49 | An example of leftmost, non-overlapping pairing: five fillers become two spaces and one filler. |
| PyStr.ReplacePairOfRun | 567-Project/MRTD.py:49 | A maximal run of k fillers becomes k / 2 spaces, plus one filler left over when k is odd, and the rest of the string is replaced independently. |
| PyStr.RightStrip | 567-Project/MRTD.py:61 | `rstrip(a)`: a prefix that does not end in a, where everything cut off was a. |
| PyStr.LeftStrip | 567-Project/MRTD.py:82 | `lstrip(a)`: a suffix that does not start with a, where everything cut off was a. |
| PyStr.StripKeepsMiddle | 567-Project/MRTD.py:82 | `strip(a)` keeps a contiguous middle stretch that neither starts nor ends with a, and everything cut off on either side is a. |
| PyStr.Split | 567-Project/MRTD.py:50 | `split()`: every word is non-empty and holds no whitespace. |
| PyStr.SplitWord | 567-Project/MRTD.py:50 | A single run of non-whitespace splits to itself. |
| PyStr.SplitAtSpace | 567-Project/MRTD.py:50 | A whitespace character separates: the words of a + c + b are the words of a followed by the words of b. With SplitWord and the empty string, this fixes `split()` as the maximal non-whitespace runs, in order. |
| PyStr.JoinAppend | 567-Project/MRTD.py:50 | `sep.join` read from the right: joining one more word appends the separator and the word, or gives the word alone when it is the first. |
| PyStr.SplitJoinInverse | 567-Project/MRTD.py:50 | Splitting words joined by single spaces gives the words back. |
| PyStr.TrailingWhitespaceIgnored | 567-Project/MRTD.py:48-50 | Trailing whitespace does not change the words. |
| PyStr.DoubleSpaceSplitsLikeOne | 567-Project/MRTD.py:49-50 | A double space separates words exactly as a single space does. |
| PyStr.ReplacePairScansAlike | 567-Project/MRTD.py:49 | Replacing filler pairs before single fillers yields the same words as replacing single fillers alone. |
| PyStr.RightStripUndoesPadding | 567-Project/MRTD.py:121 | Right-stripping undoes padding with the same character when the string does not already end in it. |
| PyStr.RightStripLeavesPadding | 567-Project/MRTD.py:48 | Every string is its right-stripped part followed by a run of the stripped character. |
| PyStr.SplitJoinShrinks | 567-Project/MRTD.py:50 | Rejoining the words with single spaces never makes a string longer. |
| Mrz.ErrorTextInjective | 567-Project/MRTD.py:39-91 | The six error messages of `decode_mrz` are pairwise different, so the failure datatype keeps every distinction the strings make. |
| Mrz.NameOf | 567-Project/MRTD.py:48-50 | The decoded name never contains filler. |
| Mrz.NormalizeName | 567-Project/MRTD.py:48-50 | The name as the decoder cleans it up never contains filler. |
| Mrz.NormalizeNameIsNameOf | 567-Project/MRTD.py:48-50 | The three-step cleanup (rstrip '<', replace '<<', replace '<', split and join) reads a name field as its words, with every filler and whitespace run as one separator. |
| Mrz.ParseLine2 | 567-Project/MRTD.py:53-62 | Parsing line 2 fails exactly when it is shorter than 43 characters. |
| Mrz.Decode | 567-Project/MRTD.py:39-91 | An empty line gives the missing-data error before anything is read. Otherwise a line 2 under 43 characters gives the invalid-format error. Otherwise the first failing check, in the order passport, birth date, expiration date, combined, is reported and nothing after it matters. When all four pass, the record holds the fields at their fixed slices, with the name normalised, the passport number stripped of filler at both ends and the personal number stripped of trailing filler only. |
| Mrz.Encode | 567-Project/MRTD.py:111-135 | Both lines are at most 44 characters, with lengths given by the field widths and their padding, and neither contains a space. |
| MrzProperties.EncodedLine1Layout | 567-Project/MRTD.py:111-113 | With a one-letter type, a three-letter country and a name of at most 39 characters, line 1 is exactly 44 characters: type, filler, country, then the name padded with filler. Spaces become filler. |
| MrzProperties.EncodedLine1Prefix | 567-Project/MRTD.py:112 | Whenever the type, a filler and the country fit in 44 characters, line 1 starts with them, with spaces turned into filler. |
| MrzProperties.EncodedLine1StartsWithFields | 567-Project/MRTD.py:112 | Without spaces, the fields appear unchanged at the start of line 1. |
| MrzProperties.EncodedLine2Layout | 567-Project/MRTD.py:116-133 | With fields of their slot widths, line 2 is exactly 43 characters. The check digits of passport, birth date and expiry sit at 9, 19 and 27 and the combined digit at 42, and each field sits in its slice. |
| MrzProperties.EncodedLine2StartsWithPassport | 567-Project/MRTD.py:124 | Without spaces, line 2 starts with the passport number. |
| MrzProperties.EncodedChecksHold | 567-Project/MRTD.py:65-75 | All four checks the decoder runs pass on an encoded line 2. Encoder and decoder assemble the combined data differently, one padded and one not, yet agree because filler is not a digit. |
| MrzProperties.EncodedLinesDecode | 567-Project/MRTD.py:39-133 | Decoding what the encoder wrote succeeds whenever the line-2 fields fit their slots. |
| MrzProperties.RoundTrip | 567-Project/MRTD.py:39-133 | For a record where the fields fit their slots (a one-letter type, a three-letter country and nationality, six-character dates, a one-letter gender, a name of at most 39, a passport number of at most 9 and a personal number of at most 14 characters); no field except the name holds a space; the type is not `<`; the passport number neither starts nor ends with filler; and the personal number does not end with filler, decode(encode(R)) returns every field unchanged, except that the name comes back as its words joined by single spaces. |
| MrzProperties.DecodedRecordIsFixedPoint | 567-Project/MRTD.py:39-133 | For a record meeting the round-trip conditions of MrzProperties.RoundTrip (fields that fit, no spaces outside the name, a type other than `<`, no edge filler in the passport number, no trailing filler in the personal number), the record with its name normalised encodes and decodes to itself. A decoded record outside those conditions, such as a country holding a space, need not come back unchanged. |
| MrzProperties.NameOfIdempotent | 567-Project/MRTD.py:48-50 | Normalising an already normalised name changes nothing. |
| MrzProperties.NameOfShrinks | 567-Project/MRTD.py:48-50 | The normalised name is never longer than the field. |
| MrzProperties.CorruptedCheckDigitReported | 567-Project/MRTD.py:65-75 | Changing any one embedded check digit of an encoding makes the decoder report exactly that field. |
| MrzProperties.FirstCorruptionWins | 567-Project/MRTD.py:65-75 | With both the passport digit and the final digit corrupted, only the passport number is reported. |
| MrzProperties.FinalDigitReplaced | 567-Project/MRTD.py:72-75 | Replacing the last character of an encoded line 2 with any other character fails the combined check. |
| MrzProperties.DecodeIgnoresLine2Tail | 567-Project/MRTD.py:53-62 | Characters of line 2 after index 42 never change the result. |
| MrzProperties.TwoLetterDocumentTypeShiftsCountry | 567-Project/MRTD.py:46-47 | With a two-letter type, decoding succeeds with the type intact. The country comes back as a filler plus its first two letters, so it differs from the real country. |
| MrzProperties.PassportDiplomaticShiftsCountry | 567-Project/MRTD.py:101-113 | The default record with type "PD" decodes with country "<UT". |
| MrzProperties.CombsNameNormalizes | 567-Project/MRTDtest.py:27-42 | "COMBS<<ADDISON<JANE" is read as "COMBS ADDISON JANE". |
| MrzProperties.CombsAddisonJaneRoundTrip | 567-Project/MRTDtest.py:24-50 | Encoding then decoding the test record gives every field back, with the name as "COMBS ADDISON JANE". |
| MrzProperties.CombinedDigitIsFour | 567-Project/MRTD.py:128-129 | The combined check digit of the test record is '4'. |
| MrzProperties.CombsFinalDigit | 567-Project/MRTD.py:131-133 | The test record's line 2 is 43 characters and ends in '4'. |
| MrzProperties.CombsAddisonJaneBadFinalDigit | 567-Project/MRTDtest.py:125-131 | Replacing the last character of the test record's line 2 with '9' reports the personal-number check. |
| MrzProperties.CombsEncodedPrefixes | 567-Project/MRTDtest.py:67-69 | The test record's line 1 starts with "P<TJKCOMBS" and its line 2 with "V855996J7". |
| MrzProperties.MalformedTestCases | 567-Project/MRTDtest.py:133-181 | Two empty lines, or an empty line 2, give the missing-data error. "INVALID_LINE1" with "INVALID_LINE2" gives the invalid-format error. |
| MrzProperties.MappingRoundTrip | 567-Project/MRTD.py:100-109 | Reading the decoder's dictionary back as the encoder's mapping gives the same record. |
| MrzProperties.EmptyMappingGivesDefaults | 567-Project/MRTD.py:100-109 | An empty mapping encodes the default record. |
| TriangleSpec.LabelTextInjective | hw-02a/Triangle.py:15-45 | The six result strings are pairwise different. |
| TriangleSpec.Sort3 | hw-02a/Triangle.py:31 | `sorted([a, b, c])` is ordered and is one of the six arrangements of a, b and c. |
| TriangleSpec.SortedArrangementIsSort3 | hw-02a/Triangle.py:31 | Every ordered arrangement of the three sides is the sorted list. |
| TriangleSpec.Sort3Symmetric | hw-02a/Triangle.py:31 | Sorting does not depend on the order of the sides. |
| TriangleSpec.SortedRightIffAnyPairRight | hw-02a/Triangle.py:31-33 | For positive sides, the right test on the sorted sides holds exactly when some two sides' squares sum to the third's square. |
| TriangleSpec.HypotenuseIsLongest | hw-02a/Triangle.py:31-33 | The side whose square is the sum of the other two is strictly the longest. |
| TriangleSpec.NoIsoscelesRight | hw-02a/Triangle.py:32-41 | No positive integer x has x² + x² equal to a square. |
| TriangleSpec.TwoEqualSidesNeverRight | hw-02a/Triangle.py:32-41 | A triangle with two equal positive sides is never right, so the right test never hides an equal-side label. |
| TriangleSpec.ClassifiedIsUnique | hw-02a/Triangle.py:18-45 | The conditions of the six labels select at most one label per triple. |
| TriangleSpec.ClassifiedIsSymmetric | hw-02a/Triangle.py:18-45 | Swapping two sides changes none of the conditions. |
| TriangleHw02a.ClassifyTriangle | hw-02a/Triangle.py:18-45 | 'InvalidInput' exactly when some side lies outside 1..200. 'NotATriangle' exactly for in-range sides breaking the strict triangle inequality. 'Right' exactly for valid triangles with some pair of squares summing to the third. 'Equilateral' exactly for in-range equal sides. 'Isosceles' exactly for valid triangles with two but not three equal sides. 'Scalene' exactly for valid, non-right triangles with distinct sides. |
| TriangleHw02a.ClassifyTrianglePermutationInvariant | hw-02a/Triangle.py:18-45 | All six orders of the sides give the same label. |
| TriangleHw02a.TestSuiteCases | hw-02a/TestTriangle.py:16-59 | The integer cases of the test suite give the labels it expects. |
| TriangleHw05.ClassifyTriangle | hw-05/triangle.py:24-40 | Meets the same characterisation of every label as hw-02a. |
| TriangleHw05.SameAsHw02a | hw-05/triangle.py:24-40 | The rewrite returns exactly what hw-02a returns on every integer triple. |
| TriangleHw05.ClassifyTrianglePermutationInvariant | hw-05/triangle.py:24-40 | All six orders of the sides give the same label. |
| TriangleClassifier.SuffixMatchesSortedTest | triangle_classifier.py:11-14 | For positive sides the suffix is "Right" exactly when the sorted sides pass the hw classifiers' test, the two shorter sides' squares summing to the longest side's square. |
| TriangleClassifier.ClassifyTriangle | triangle_classifier.py:1-25 | "Invalid input" exactly when some side is at most 0, with no upper bound. "Not a triangle" exactly for positive sides breaking the strict triangle inequality. Otherwise "Equilateral " for three equal sides, "Isosceles " for exactly two, and "Scalene " followed by the suffix for distinct sides. |
| TriangleClassifier.ShapeThenSuffix | triangle_classifier.py:11-25 | A valid triangle's result is a shape word, a space and the suffix, and it ends in "Right" exactly when some two sides' squares sum to the third's square. |
| TriangleClassifier.EquilateralHasNoSuffix | triangle_classifier.py:17-18 | Equal positive sides always give "Equilateral " with no suffix. |
| TriangleClassifier.ClassifyTrianglePermutationInvariant | triangle_classifier.py:3-25 | All six orders of the sides give the same string. |
| TriangleClassifier.RightAgreesWithHw05 | triangle_classifier.py:11-14 | For triangles with sides in 1..200, the result ends in "Right" exactly when the hw-05 classifier returns 'Right'. |
| TriangleClassifier.NoUpperBound | triangle_classifier.py:3-4 | Sides 300, 400, 500 give "Scalene Right", while hw-05 rejects them as 'InvalidInput'. |
| TriangleClassifier.TestSuiteCases | test_triangle_classifier.py:6-29 | The integer cases of the test suite give the strings it expects. |

## Left out

- Logging is left out. `logging.basicConfig` and the `logging.error` calls only write to a log file and never change a result.
- `scan_mrz` is folded into `Mrz.Decode`. Its two lines become parameters.
- `hardware_scan`, `retrieve_from_database` and `write_to_database` are left out. They return fixed dummy data or do nothing.
- The `__main__` blocks of `MRTD.py` and `triangle_classifier.py` are left out. They only print demonstrations.
- Damm.IsDigit: every field is taken to be ASCII. `isdigit()` and `int()` also accept non-ASCII decimal digits such as '٣' or '３', and `calculate_check_digit` folds them as their values; `Damm.IsDigit` accepts only '0'..'9' and skips them.
- The generic `except Exception` branch of `decode_mrz` is left out. A character such as '²', for which `isdigit()` holds but `int()` fails, reaches it, and the source then returns "Error: An unexpected error occurred.". The model skips such characters like any other non-digit.
- Python's runtime type checks are left out. This covers `isinstance` on non-integers, `bool` passed as `int`, and float sides in `triangle_classifier.py`. The sides are Dafny integers, so the checks have nothing to reject. Float arithmetic is not modelled.
- `encode_mrz` takes a complete `Mrz.MrzRecord`. `Mrz.RecordFromMapping` models the `data.get(key, default)` calls over a `map<string, string>`. Values that are not strings are not modelled.
- The decoder's dictionary result is `Mrz.MrzRecord`. `Mrz.RecordToMapping` gives it the same keys.
- The `validate_check_digit` arguments `field_name` and `line` feed only the log message, so `Damm.Validate` omits them.
- Mrz.Encode: its contract gives the lengths and the space-free lines for every record. Where each field and check digit sits is stated only for records whose fields fit their slots, in `MrzProperties.EncodedLine1Layout` and `MrzProperties.EncodedLine2Layout`.
- MrzProperties.RoundTrip: it holds only for records where the fields fit their slots (a one-letter type, a three-letter country and nationality, six-character dates, a one-letter gender, a name of at most 39, a passport number of at most 9 and a personal number of at most 14 characters); no field except the name holds a space; the type is not `<`; the passport number neither starts nor ends with filler; and the personal number does not end with filler. Outside those conditions a different record can come back. The encoder turns spaces into filler and the decoder strips filler again. The decoder also erases a `<` type. Spaces in the name do no harm, because the name comes back as its words.

=== FILE: checksum.dfy ===
/** The check-digit engine of the MRZ codec: a Damm checksum that folds the
    decimal digits of a field through a constant 10x10 quasigroup table and
    skips every other character. */
module Damm {

  /** An interim checksum state, and the value of one decimal digit. */
  type Digit = x: int | 0 <= x < 10

  /** One row of a 10x10 table. */
  type Row = r: seq<Digit> | |r| == 10 witness [0, 0, 0, 0, 0, 0, 0, 0, 0, 0]

  /** Row = current interim digit, column = next input digit. */
  const Table: seq<Row> := [
    [0, 3, 1, 7, 5, 9, 8, 6, 4, 2],
    [7, 0, 9, 2, 1, 5, 4, 8, 6, 3],
    [4, 2, 0, 6, 8, 7, 1, 3, 5, 9],
    [1, 7, 5, 0, 9, 8, 3, 4, 2, 6],
    [6, 1, 2, 3, 0, 4, 5, 9, 7, 8],
    [3, 6, 7, 4, 2, 0, 9, 5, 8, 1],
    [5, 8, 6, 9, 7, 2, 0, 1, 3, 4],
    [8, 9, 4, 5, 3, 6, 2, 0, 1, 7],
    [9, 4, 3, 8, 6, 1, 7, 2, 0, 5],
    [2, 5, 8, 1, 4, 3, 6, 7, 9, 0]
  ]

  /** RowInverse[x][v] is the column of row x that holds v. */
  const RowInverse: seq<Row> := [
    [0, 2, 9, 1, 8, 4, 7, 3, 6, 5],
    [1, 4, 3, 9, 6, 5, 8, 0, 7, 2],
    [2, 6, 1, 7, 0, 8, 3, 5, 4, 9],
    [3, 0, 8, 6, 7, 2, 9, 1, 5, 4],
    [4, 1, 2, 3, 5, 6, 0, 8, 9, 7],
    [5, 9, 4, 0, 3, 7, 1, 2, 8, 6],
    [6, 7, 5, 8, 9, 0, 2, 4, 1, 3],
    [7, 8, 6, 4, 2, 3, 5, 9, 0, 1],
    [8, 5, 7, 2, 1, 9, 4, 6, 3, 0],
    [9, 3, 0, 5, 4, 1, 6, 7, 2, 8]
  ]

  /** ColumnInverse[d][v] is the row whose entry in column d is v. */
  const ColumnInverse: seq<Row> := [
    [0, 3, 9, 5, 2, 6, 4, 1, 7, 8],
    [1, 4, 2, 0, 8, 9, 5, 3, 6, 7],
    [2, 0, 4, 8, 7, 3, 6, 5, 9, 1],
    [3, 9, 1, 4, 5, 7, 2, 0, 8, 6],
    [4, 1, 5, 7, 9, 0, 8, 6, 2, 3],
    [5, 8, 6, 9, 4, 1, 7, 2, 3, 0],
    [6, 2, 7, 3, 1, 4, 9, 8, 0, 5],
    [7, 6, 8, 2, 3, 5, 0, 9, 1, 4],
    [8, 7, 3, 6, 0, 2, 1, 4, 5, 9],
    [9, 5, 0, 1, 6, 8, 3, 7, 4, 2]
  ]

  /** `char.isdigit()`, restricted to ASCII. */
  predicate IsDigit(c: char) {
    '0' <= c <= '9'
  }

  /** `int(char)` for an ASCII digit. */
  function DigitValue(c: char): Digit
    requires IsDigit(c)
  {
    (c as int) - ('0' as int)
  }

  /** `str(d)` for a single digit. */
  function DigitChar(d: Digit): (c: char)
    ensures IsDigit(c) && DigitValue(c) == d
  {
    (d + ('0' as int)) as char
  }

  /** One iteration of the checksum loop: digits move the state through
      the table, everything else leaves it alone. */
  function Step(interim: Digit, c: char): Digit {
    if IsDigit(c) then Table[interim][DigitValue(c)] else interim
  }

  /** The checksum loop, run from `interim` over every character of `s`. */
  function Fold(interim: Digit, s: string): Digit
    decreases |s|
  {
    if s == [] then interim else Fold(Step(interim, s[0]), s[1..])
  }

  /** The decimal digits of `s`, in order. */
  function Digits(s: string): (ds: string)
    ensures forall i | 0 <= i < |ds| :: IsDigit(ds[i])
    ensures |ds| <= |s|
  {
    if s == [] then []
    else if IsDigit(s[0]) then [s[0]] + Digits(s[1..])
    else Digits(s[1..])
  }

  /** `calculate_check_digit`: the interim state after the whole field,
      starting from 0, as a digit character. A field without digits
      leaves the state at 0. */
  function CheckDigit(field: string): (d: char)
    ensures IsDigit(d)
    ensures (forall i | 0 <= i < |field| :: !IsDigit(field[i])) ==> d == '0'
  {
    var d := DigitChar(Fold(0, field));
    assert (forall i | 0 <= i < |field| :: !IsDigit(field[i])) ==> d == '0' by {
      if forall i | 0 <= i < |field| :: !IsDigit(field[i]) {
        NonDigitsKeepState(0, field);
      }
    }
    d
  }

  /** `validate_check_digit`: the embedded digit agrees with the computed one. */
  function Validate(field: string, checkDigit: char): (ok: bool)
    ensures ok ==> IsDigit(checkDigit)
  {
    CheckDigit(field) == checkDigit
  }

  // ---------------------------------------------------------------------
  // The table

  lemma DigitCases(x: Digit)
    ensures x == 0 || x == 1 || x == 2 || x == 3 || x == 4
         || x == 5 || x == 6 || x == 7 || x == 8 || x == 9
  {
  }

  /** Every diagonal entry of the table is 0. */
  lemma DiagonalIsZero(x: Digit)
    ensures Table[x][x] == 0
  {
    DigitCases(x);
  }

  /** The only 0 of row x sits on the diagonal. */
  lemma ZeroOnlyOnDiagonal(x: Digit, d: Digit)
    ensures Table[x][d] == 0 <==> d == x
  {
    RowInverseCorrect(x, d);
    DigitCases(x);
  }

  lemma RowInverseCorrect(x: Digit, d: Digit)
    ensures RowInverse[x][Table[x][d]] == d
  {
    DigitCases(x);
    DigitCases(d);
  }

  lemma ColumnInverseCorrect(x: Digit, d: Digit)
    ensures ColumnInverse[d][Table[x][d]] == x
  {
    DigitCases(x);
    DigitCases(d);
  }

  /** Each row is a permutation: a different input digit leads to a
      different state. */
  lemma RowsInjective(x: Digit, a: Digit, b: Digit)
    requires a != b
    ensures Table[x][a] != Table[x][b]
  {
    RowInverseCorrect(x, a);
    RowInverseCorrect(x, b);
  }

  /** Each column is a permutation: different states stay different after
      reading the same digit. */
  lemma ColumnsInjective(x: Digit, y: Digit, d: Digit)
    requires x != y
    ensures Table[x][d] != Table[y][d]
  {
    ColumnInverseCorrect(x, d);
    ColumnInverseCorrect(y, d);
  }

  // ---------------------------------------------------------------------
  // The fold

  lemma {:induction false} FoldConcat(interim: Digit, a: string, b: string)
    ensures Fold(interim, a + b) == Fold(Fold(interim, a), b)
    decreases |a|
  {
    if a != [] {
      assert (a + b)[0] == a[0];
      assert (a + b)[1..] == a[1..] + b;
      FoldConcat(Step(interim, a[0]), a[1..], b);
    } else {
      assert a + b == b;
    }
  }

  /** A stretch without digits leaves the state unchanged. */
  lemma {:induction false} NonDigitsKeepState(interim: Digit, s: string)
    requires forall i | 0 <= i < |s| :: !IsDigit(s[i])
    ensures Fold(interim, s) == interim
    decreases |s|
  {
    if s != [] {
      NonDigitsKeepState(interim, s[1..]);
    }
  }

  /** The fold only sees the digits of its input. */
  lemma {:induction false} FoldSeesOnlyDigits(interim: Digit, s: string)
    ensures Fold(interim, s) == Fold(interim, Digits(s))
    decreases |s|
  {
    if s != [] {
      FoldSeesOnlyDigits(Step(interim, s[0]), s[1..]);
      if IsDigit(s[0]) {
        assert Digits(s) == [s[0]] + Digits(s[1..]);
        assert ([s[0]] + Digits(s[1..]))[1..] == Digits(s[1..]);
      }
    }
  }

  /** Two fields with the same digits in the same order have the same
      check digit, whatever filler or letters surround them. */
  lemma SameDigitsSameCheckDigit(s: string, t: string)
    requires Digits(s) == Digits(t)
    ensures CheckDigit(s) == CheckDigit(t)
  {
    FoldSeesOnlyDigits(0, s);
    FoldSeesOnlyDigits(0, t);
  }

  lemma {:induction false} DigitsConcat(a: string, b: string)
    ensures Digits(a + b) == Digits(a) + Digits(b)
    decreases |a|
  {
    if a != [] {
      assert (a + b)[0] == a[0];
      assert (a + b)[1..] == a[1..] + b;
      DigitsConcat(a[1..], b);
    } else {
      assert a + b == b;
    }
  }

  /** Inserting a non-digit anywhere (a `<` filler, a letter) never changes
      the check digit. */
  lemma NonDigitIgnored(a: string, c: char, b: string)
    requires !IsDigit(c)
    ensures CheckDigit(a + [c] + b) == CheckDigit(a + b)
  {
    DigitsConcat(a + [c], b);
    DigitsConcat(a, [c]);
    DigitsConcat(a, b);
    assert Digits([c]) == [];
    SameDigitsSameCheckDigit(a + [c] + b, a + b);
  }

  /** Appending a field's own check digit and checking again yields '0'. */
  lemma AppendCheckDigitGivesZero(field: string)
    ensures CheckDigit(field + [CheckDigit(field)]) == '0'
  {
    var x := Fold(0, field);
    FoldConcat(0, field, [CheckDigit(field)]);
    DiagonalIsZero(x);
  }

  /** A digit validates a field exactly when the field followed by that
      digit checks to '0'. */
  lemma ValidateIffAppendedChecksToZero(field: string, d: char)
    ensures Validate(field, d) <==> IsDigit(d) && CheckDigit(field + [d]) == '0'
  {
    var x := Fold(0, field);
    FoldConcat(0, field, [d]);
    if IsDigit(d) {
      ZeroOnlyOnDiagonal(x, DigitValue(d));
    }
  }

  /** Different states stay different through any common suffix. */
  lemma {:induction false} FoldSeparates(x: Digit, y: Digit, s: string)
    requires x != y
    ensures Fold(x, s) != Fold(y, s)
    decreases |s|
  {
    if s != [] {
      if IsDigit(s[0]) {
        ColumnsInjective(x, y, DigitValue(s[0]));
      }
      FoldSeparates(Step(x, s[0]), Step(y, s[0]), s[1..]);
    }
  }

  /** Damm detects every single-digit substitution error: mistyping one
      digit of a field always changes its check digit. */
  lemma SubstitutionDetected(p: string, a: char, b: char, q: string)
    requires IsDigit(a) && IsDigit(b) && a != b
    ensures CheckDigit(p + [a] + q) != CheckDigit(p + [b] + q)
  {
    var x := Fold(0, p);
    FoldConcat(0, p + [a], q);
    FoldConcat(0, p, [a]);
    FoldConcat(0, p + [b], q);
    FoldConcat(0, p, [b]);
    RowsInjective(x, DigitValue(a), DigitValue(b));
    FoldSeparates(Step(x, a), Step(x, b), q);
  }

  /** The worked values the codec's own checks rely on. */
  lemma KnownCheckDigits()
    ensures CheckDigit("123456789") == '4'
    ensures CheckDigit("ABCD1234") == '0'
    ensures CheckDigit("") == '0'
    ensures Validate("123456789", '4')
  {
    NineDigitsCheckDigit();
    LettersSkippedCheckDigit();
  }

  lemma NineDigitsCheckDigit()
    ensures CheckDigit("123456789") == '4'
  {
  }

  lemma LettersSkippedCheckDigit()
    ensures CheckDigit("ABCD1234") == '0'
  {
  }
}

=== FILE: mrz.dfy ===
/** The two-line passport MRZ codec: a decoder that slices two lines at fixed
    offsets and validates four Damm check digits in a fixed order, and an
    encoder that lays a record out into the same two lines.

    The stateful processor of the original (lines stored by `scan_mrz`, then
    read by `decode_mrz`) becomes the pure function `Decode(line1, line2)`. */
module Mrz {
  import opened PyStr
  import Damm

  /** The filler character: padding, and the separator inside the name field. */
  const Filler: char := '<'

  /** The decoder reads single characters of line 2 up to index 42, so it
      needs at least this many characters. */
  const Line2MinLength: nat := 43

  /** The wire lines are cut to this length. */
  const LineLength: nat := 44

  /** The nine fields of a travel document, as plain strings. */
  datatype MrzRecord = MrzRecord(
    documentType: string,
    issuingCountry: string,
    name: string,
    passportNumber: string,
    nationality: string,
    birthDate: string,
    gender: string,
    expirationDate: string,
    personalNumber: string)

  /** The four check-digit validations, in the order the decoder runs them.
      The last one covers the combined data and is reported under the
      personal number. */
  datatype CheckedField = PassportNumber | BirthDate | ExpirationDate | PersonalNumber

  /** What `decode_mrz` returns: one of its error messages, or the record. */
  datatype Decoded =
    | MissingData
    | InvalidFormat
    | ChecksumFailed(field: CheckedField)
    | Valid(record: MrzRecord)

  /** The text the decoder returns for each failure. */
  function ErrorText(d: Decoded): string
    requires !d.Valid?
  {
    match d
    case MissingData => "Error: MRZ data is missing."
    case InvalidFormat => "Error: Invalid MRZ data format."
    case ChecksumFailed(PassportNumber) => "Check digit validation failed for passport number."
    case ChecksumFailed(BirthDate) => "Check digit validation failed for birth date."
    case ChecksumFailed(ExpirationDate) => "Check digit validation failed for expiration date."
    case ChecksumFailed(PersonalNumber) => "Check digit validation failed for personal number."
  }

  /** Different failures give different messages, so the datatype keeps
      every distinction the error strings make. */
  lemma ErrorTextInjective(d: Decoded, e: Decoded)
    requires !d.Valid? && !e.Valid?
    ensures ErrorText(d) == ErrorText(e) <==> d == e
  {
    ErrorTextNamesFailure(d);
    ErrorTextNamesFailure(e);
  }

  /** The failure a message names: the two general errors differ at index 7,
      the four check-digit ones in the second letter of the field's name. */
  function FailureNamedBy(t: string): Decoded {
    if |t| < 36 then (if |t| > 7 && t[7] == 'M' then MissingData else InvalidFormat)
    else if t[35] == 'a' then ChecksumFailed(PassportNumber)
    else if t[35] == 'i' then ChecksumFailed(BirthDate)
    else if t[35] == 'x' then ChecksumFailed(ExpirationDate)
    else ChecksumFailed(PersonalNumber)
  }

  lemma ErrorTextNamesFailure(d: Decoded)
    requires !d.Valid?
    ensures FailureNamedBy(ErrorText(d)) == d
  {
    var t := ErrorText(d);
    match d
    case MissingData => assert |t| == 27 && t[7] == 'M';
    case InvalidFormat => assert |t| == 31 && t[7] == 'I';
    case ChecksumFailed(PassportNumber) => assert |t| > 36 && t[35] == 'a';
    case ChecksumFailed(BirthDate) => assert |t| > 36 && t[35] == 'i';
    case ChecksumFailed(ExpirationDate) => assert |t| > 36 && t[35] == 'x';
    case ChecksumFailed(PersonalNumber) => assert |t| > 36 && t[35] == 'e';
  }

  /** A read that can raise `IndexError`. */
  datatype Option<+T> = None | Some(value: T) {
    predicate IsFailure() {
      None?
    }

    function PropagateFailure<U>(): Option<U>
      requires None?
    {
      None
    }

    function Extract(): T
      requires Some?
    {
      value
    }
  }

  /** `s[i]`: the one operation of the decoder that can fail. */
  function At(s: string, i: nat): (r: Option<char>)
    // The ensures only unfold the body for the decoder's proofs.
    ensures r.Some? <==> i < |s|
    ensures r.Some? ==> r.value == s[i]
  {
    if i < |s| then Some(s[i]) else None
  }

  // ---------------------------------------------------------------------
  // Decoding

  /** The name as the decoder cleans it up: trailing filler cut, filler
      pairs and single fillers turned into spaces, whitespace runs collapsed. */
  function NormalizeName(field: string): (n: string)
    ensures Filler !in n
  {
    var trimmed := RightStrip(field, Filler);
    var spaced := ReplaceChar(ReplacePair(trimmed, Filler, ' '), Filler, ' ');
    ReplaceCharClears(ReplacePair(trimmed, Filler, ' '), Filler, ' ');
    SplitAvoids(spaced, Filler);
    JoinAvoids(" ", Split(spaced), Filler);
    Join(" ", Split(spaced))
  }

  /** The reference reading of a name field: its words, where filler and
      whitespace both separate words, joined by single spaces. */
  function NameOf(field: string): (n: string)
    ensures Filler !in n
  {
    var spaced := ReplaceChar(field, Filler, ' ');
    SplitAvoids(spaced, Filler);
    JoinAvoids(" ", Split(spaced), Filler);
    Join(" ", Split(spaced))
  }

  /** The decoder's three-step cleanup reads every name field the same way as
      the reference: the `rstrip` and the `<<` replacement are subsumed by
      treating each filler as whitespace. */
  lemma NormalizeNameIsNameOf(field: string)
    ensures NormalizeName(field) == NameOf(field)
  {
    var trimmed := RightStrip(field, Filler);
    var k := |field| - |trimmed|;
    assert field == trimmed + Repeat(Filler, k);
    assert ReplaceChar(field, Filler, ' ') == ReplaceChar(trimmed, Filler, ' ') + Repeat(' ', k);
    TrailingWhitespaceIgnored(ReplaceChar(trimmed, Filler, ' '), Repeat(' ', k));
    ReplacePairScansAlike(Splitter([], []), trimmed, Filler, ' ');
  }

  datatype Line1Fields = Line1Fields(documentType: string, issuingCountry: string, name: string)

  /** Line 1 is only sliced, so it never fails. */
  function ParseLine1(line1: string): Line1Fields {
    Line1Fields(
      RemoveChar(Slice(line1, 0, 2), Filler),
      Slice(line1, 2, 5),
      NormalizeName(From(line1, 5)))
  }

  datatype Line2Fields = Line2Fields(
    passportNumber: string,
    passportCheck: char,
    nationality: string,
    birthDate: string,
    birthCheck: char,
    gender: char,
    expirationDate: string,
    expirationCheck: char,
    personalNumber: string,
    finalCheck: char)

  /** Line 2 fails on the first single-character read past its end. */
  function ParseLine2(line2: string): (r: Option<Line2Fields>)
    ensures r.Some? <==> |line2| >= Line2MinLength
  {
    var passportNumber := Slice(line2, 0, 9);
    var passportCheck :- At(line2, 9);
    var nationality := Slice(line2, 10, 13);
    var birthDate := Slice(line2, 13, 19);
    var birthCheck :- At(line2, 19);
    var gender :- At(line2, 20);
    var expirationDate := Slice(line2, 21, 27);
    var expirationCheck :- At(line2, 27);
    var personalNumber := RightStrip(Slice(line2, 28, 42), Filler);
    var finalCheck :- At(line2, 42);
    Some(Line2Fields(passportNumber, passportCheck, nationality, birthDate, birthCheck,
                     gender, expirationDate, expirationCheck, personalNumber, finalCheck))
  }

  /** The combined data covered by the final check digit, as the decoder
      assembles it from line 2. */
  function DecodedCombined(line2: string): string
    requires |line2| >= Line2MinLength
  {
    line2[..9] + line2[13..19] + line2[21..27] + RightStrip(line2[28..42], Filler)
  }

  predicate PassportCheckHolds(line2: string)
    requires |line2| >= Line2MinLength
  {
    Damm.Validate(line2[..9], line2[9])
  }

  predicate BirthCheckHolds(line2: string)
    requires |line2| >= Line2MinLength
  {
    Damm.Validate(line2[13..19], line2[19])
  }

  predicate ExpirationCheckHolds(line2: string)
    requires |line2| >= Line2MinLength
  {
    Damm.Validate(line2[21..27], line2[27])
  }

  predicate FinalCheckHolds(line2: string)
    requires |line2| >= Line2MinLength
  {
    Damm.Validate(DecodedCombined(line2), line2[42])
  }

  /** `decode_mrz`. Missing data is checked before anything is read; only a
      short line 2 makes a read fail; the check digits are validated in the
      order passport, birth date, expiration date, combined, and the first
      failure is reported without looking at the rest. */
  function Decode(line1: string, line2: string): (r: Decoded)
    ensures r == MissingData <==> line1 == [] || line2 == []
    ensures r == InvalidFormat <==> line1 != [] && line2 != [] && |line2| < Line2MinLength
    ensures r == ChecksumFailed(PassportNumber) <==>
      line1 != [] && |line2| >= Line2MinLength && !PassportCheckHolds(line2)
    ensures r == ChecksumFailed(BirthDate) <==>
      line1 != [] && |line2| >= Line2MinLength && PassportCheckHolds(line2)
      && !BirthCheckHolds(line2)
    ensures r == ChecksumFailed(ExpirationDate) <==>
      line1 != [] && |line2| >= Line2MinLength && PassportCheckHolds(line2)
      && BirthCheckHolds(line2) && !ExpirationCheckHolds(line2)
    ensures r == ChecksumFailed(PersonalNumber) <==>
      line1 != [] && |line2| >= Line2MinLength && PassportCheckHolds(line2)
      && BirthCheckHolds(line2) && ExpirationCheckHolds(line2) && !FinalCheckHolds(line2)
    ensures r.Valid? <==>
      line1 != [] && |line2| >= Line2MinLength && PassportCheckHolds(line2)
      && BirthCheckHolds(line2) && ExpirationCheckHolds(line2) && FinalCheckHolds(line2)
    ensures r.Valid? ==> r.record == MrzRecord(
      RemoveChar(Slice(line1, 0, 2), Filler),
      Slice(line1, 2, 5),
      NameOf(From(line1, 5)),
      Strip(line2[..9], Filler),
      line2[10..13],
      line2[13..19],
      [line2[20]],
      line2[21..27],
      RightStrip(line2[28..42], Filler))
  {
    if line1 == [] || line2 == [] then MissingData
    else
      var l1 := ParseLine1(line1);
      match ParseLine2(line2)
      case None => InvalidFormat
      case Some(f) =>
        if !Damm.Validate(f.passportNumber, f.passportCheck) then ChecksumFailed(PassportNumber)
        else if !Damm.Validate(f.birthDate, f.birthCheck) then ChecksumFailed(BirthDate)
        else if !Damm.Validate(f.expirationDate, f.expirationCheck) then ChecksumFailed(ExpirationDate)
        else
          var combined := f.passportNumber + f.birthDate + f.expirationDate + f.personalNumber;
          if !Damm.Validate(combined, f.finalCheck) then ChecksumFailed(PersonalNumber)
          else
            NormalizeNameIsNameOf(From(line1, 5));
            Valid(MrzRecord(
              l1.documentType,
              l1.issuingCountry,
              l1.name,
              Strip(f.passportNumber, Filler),
              f.nationality,
              f.birthDate,
              [f.gender],
              f.expirationDate,
              f.personalNumber))
  }

  // ---------------------------------------------------------------------
  // Encoding

  datatype MrzLines = MrzLines(line1: string, line2: string)

  function Min(a: int, b: int): int {
    if a < b then a else b
  }

  function Max(a: int, b: int): int {
    if a < b then b else a
  }

  /** The data the final check digit covers, as the encoder assembles it
      from the unpadded fields. */
  function EncodedCombined(r: MrzRecord): string {
    r.passportNumber + r.birthDate + r.expirationDate + r.personalNumber
  }

  /** Line 1 before it is cut to length: document type, a filler, the
      country, and the name left-justified to 39 with spaces. */
  function Line1Text(r: MrzRecord): string {
    r.documentType + [Filler] + r.issuingCountry + LeftJustify(r.name, 39, ' ')
  }

  /** Line 2 before the final check digit. */
  function Line2Text(r: MrzRecord): string {
    LeftJustify(r.passportNumber, 9, ' ') + [Damm.CheckDigit(r.passportNumber)]
    + r.nationality + r.birthDate + [Damm.CheckDigit(r.birthDate)]
    + r.gender + r.expirationDate + [Damm.CheckDigit(r.expirationDate)]
    + LeftJustify(r.personalNumber, 14, Filler)
  }

  /** `encode_mrz` on a record with every field present. Both lines are cut
      to 44 characters; every space becomes filler. */
  function Encode(r: MrzRecord): (lines: MrzLines)
    ensures |lines.line1| == Min(LineLength,
      |r.documentType| + 1 + |r.issuingCountry| + Max(|r.name|, 39))
    ensures |lines.line2| == Min(LineLength,
      Max(|r.passportNumber|, 9) + |r.nationality| + |r.birthDate| + |r.gender|
      + |r.expirationDate| + Max(|r.personalNumber|, 14) + 4)
    ensures ' ' !in lines.line1 && ' ' !in lines.line2
  {
    var line1 := Take(ReplaceChar(Line1Text(r), ' ', Filler), LineLength);
    var finalCheck := Damm.CheckDigit(EncodedCombined(r));
    var line2 := Take(ReplaceChar(Line2Text(r), ' ', Filler) + [finalCheck], LineLength);
    MrzLines(line1, line2)
  }

  // ---------------------------------------------------------------------
  // The field mapping

  /** `data.get(key, default)`. */
  function Get(data: map<string, string>, key: string, default: string): string {
    if key in data then data[key] else default
  }

  const DefaultRecord: MrzRecord := MrzRecord(
    "P", "UTO", "DOE<<JOHN<QUINCY", "L898902C3", "UTO", "800101", "M", "250101", "123456789")

  /** The fields `encode_mrz` reads from its mapping, each with its default. */
  function RecordFromMapping(data: map<string, string>): MrzRecord {
    MrzRecord(
      Get(data, "Document Type", DefaultRecord.documentType),
      Get(data, "Issuing Country", DefaultRecord.issuingCountry),
      Get(data, "Name", DefaultRecord.name),
      Get(data, "Passport Number", DefaultRecord.passportNumber),
      Get(data, "Nationality", DefaultRecord.nationality),
      Get(data, "Date of Birth", DefaultRecord.birthDate),
      Get(data, "Gender", DefaultRecord.gender),
      Get(data, "Expiration Date", DefaultRecord.expirationDate),
      Get(data, "Personal Number", DefaultRecord.personalNumber))
  }

  /** The dictionary `decode_mrz` returns for a record, under the same keys. */
  function RecordToMapping(r: MrzRecord): map<string, string> {
    map[
      "Document Type" := r.documentType,
      "Issuing Country" := r.issuingCountry,
      "Name" := r.name,
      "Passport Number" := r.passportNumber,
      "Nationality" := r.nationality,
      "Date of Birth" := r.birthDate,
      "Gender" := r.gender,
      "Expiration Date" := r.expirationDate,
      "Personal Number" := r.personalNumber]
  }

  /** `encode_mrz(data)`. */
  function EncodeMapping(data: map<string, string>): MrzLines {
    Encode(RecordFromMapping(data))
  }
}

=== FILE: mrz_properties.dfy ===
/** What the MRZ codec guarantees across calls: where the encoder puts each
    field and check digit, that decoding an encoded record succeeds and gives
    the fields back, that a corrupted check digit is reported under the right
    field, and where the layout breaks down. */
module MrzProperties {
  import opened PyStr
  import opened Mrz
  import Damm

  /** `s.replace(" ", "<")`, which the encoder applies to each whole line. */
  function Fill(s: string): string {
    ReplaceChar(s, ' ', Filler)
  }

  /** The line-1 fields have the widths of their slots. */
  predicate Line1Fits(r: MrzRecord) {
    |r.documentType| == 1 && |r.issuingCountry| == 3 && |r.name| <= 39
  }

  /** The line-2 fields have the widths of their slots. */
  predicate Line2Fits(r: MrzRecord) {
    && |r.passportNumber| <= 9 && |r.nationality| == 3 && |r.birthDate| == 6
    && |r.gender| == 1 && |r.expirationDate| == 6 && |r.personalNumber| <= 14
  }

  /** The records the codec carries through a round trip: every field fits
      its slot, no field holds a space (the encoder turns spaces into filler),
      and no field has filler where the decoder strips it. */
  predicate RoundTrips(r: MrzRecord) {
    && Line1Fits(r) && Line2Fits(r)
    && r.documentType[0] != Filler
    && ' ' !in r.documentType && ' ' !in r.issuingCountry
    && ' ' !in r.passportNumber && ' ' !in r.nationality && ' ' !in r.birthDate
    && ' ' !in r.gender && ' ' !in r.expirationDate && ' ' !in r.personalNumber
    && (r.passportNumber == []
        || (r.passportNumber[0] != Filler && r.passportNumber[|r.passportNumber| - 1] != Filler))
    && (r.personalNumber == [] || r.personalNumber[|r.personalNumber| - 1] != Filler)
  }

  lemma FillConcat(a: string, b: string)
    ensures Fill(a + b) == Fill(a) + Fill(b)
  {
  }

  lemma FillWithoutSpaces(s: string)
    requires ' ' !in s
    ensures Fill(s) == s
  {
  }

  // ---------------------------------------------------------------------
  // Layout of the encoded lines

  /** With a one-letter document type and a three-letter country, line 1 is
      exactly 44 characters: type, filler, country, then the name padded with
      filler to 39. */
  lemma EncodedLine1Layout(r: MrzRecord)
    requires Line1Fits(r)
    ensures var line1 := Encode(r).line1;
      && |line1| == LineLength
      && line1 == Fill(r.documentType) + [Filler] + Fill(r.issuingCountry)
                  + Fill(r.name) + Repeat(Filler, 39 - |r.name|)
  {
    var t := Line1Text(r);
    assert |t| == 44;
    assert LeftJustify(r.name, 39, ' ') == r.name + Repeat(' ', 39 - |r.name|);
    FillConcat(r.documentType + [Filler] + r.issuingCountry, LeftJustify(r.name, 39, ' '));
    FillConcat(r.documentType + [Filler], r.issuingCountry);
    FillConcat(r.documentType, [Filler]);
    FillConcat(r.name, Repeat(' ', 39 - |r.name|));
    assert Fill(Repeat(' ', 39 - |r.name|)) == Repeat(Filler, 39 - |r.name|);
  }

  lemma FillSlice(s: string, i: nat, j: nat)
    requires i <= j <= |s|
    ensures Fill(s)[i..j] == Fill(s[i..j])
  {
  }

  lemma FillPadded(s: string, n: nat, c: char)
    requires c == ' ' || c == Filler
    requires |s| <= n
    ensures Fill(LeftJustify(s, n, c)) == Fill(s) + Repeat(Filler, n - |s|)
  {
  }

  /** Where the f-string of line 2 puts each piece, before spaces become filler. */
  lemma Line2TextLayout(r: MrzRecord)
    requires Line2Fits(r)
    ensures var t := Line2Text(r);
      && |t| == 42
      && t[..9] == LeftJustify(r.passportNumber, 9, ' ')
      && t[9] == Damm.CheckDigit(r.passportNumber)
      && t[10..13] == r.nationality
      && t[13..19] == r.birthDate
      && t[19] == Damm.CheckDigit(r.birthDate)
      && t[20..21] == r.gender
      && t[21..27] == r.expirationDate
      && t[27] == Damm.CheckDigit(r.expirationDate)
      && t[28..] == LeftJustify(r.personalNumber, 14, Filler)
  {
    Line2Pieces(LeftJustify(r.passportNumber, 9, ' '), Damm.CheckDigit(r.passportNumber),
                r.nationality, r.birthDate, Damm.CheckDigit(r.birthDate), r.gender,
                r.expirationDate, Damm.CheckDigit(r.expirationDate),
                LeftJustify(r.personalNumber, 14, Filler));
  }

  /** The offsets of nine pieces of widths 9, 1, 3, 6, 1, 1, 6, 1 and 14. */
  lemma Line2Pieces(p: string, d: char, n: string, b: string, e: char, g: string,
                    x: string, f: char, q: string)
    requires |p| == 9 && |n| == 3 && |b| == 6 && |g| == 1 && |x| == 6 && |q| == 14
    ensures var t := p + [d] + n + b + [e] + g + x + [f] + q;
      && |t| == 42
      && t[..9] == p && t[9] == d && t[10..13] == n && t[13..19] == b && t[19] == e
      && t[20..21] == g && t[21..27] == x && t[27] == f && t[28..] == q
  {
    var head := p + [d] + n + b + [e];
    var tail := g + x + [f] + q;
    assert p + [d] + n + b + [e] + g + x + [f] + q == head + tail;
    assert head[..9] == p && head[10..13] == n && head[13..19] == b;
    assert tail[..1] == g && tail[1..7] == x && tail[8..] == q;
  }

  lemma EncodedLine2IsWhole(r: MrzRecord)
    requires Line2Fits(r)
    ensures Encode(r).line2 == Fill(Line2Text(r)) + [Damm.CheckDigit(EncodedCombined(r))]
  {
    Line2TextLayout(r);
  }

  /** With every line-2 field at its width, line 2 is 43 characters — not 44:
      9 + 1 + 3 + 6 + 1 + 1 + 6 + 1 + 14 characters, then the final digit at
      index 42. Each check digit sits where the decoder reads it. */
  lemma EncodedLine2Layout(r: MrzRecord)
    requires Line2Fits(r)
    ensures var line2 := Encode(r).line2;
      && |line2| == Line2MinLength
      && line2[..9] == Fill(r.passportNumber) + Repeat(Filler, 9 - |r.passportNumber|)
      && line2[9] == Damm.CheckDigit(r.passportNumber)
      && line2[10..13] == Fill(r.nationality)
      && line2[13..19] == Fill(r.birthDate)
      && line2[19] == Damm.CheckDigit(r.birthDate)
      && [line2[20]] == Fill(r.gender)
      && line2[21..27] == Fill(r.expirationDate)
      && line2[27] == Damm.CheckDigit(r.expirationDate)
      && line2[28..42] == Fill(r.personalNumber) + Repeat(Filler, 14 - |r.personalNumber|)
      && line2[42] == Damm.CheckDigit(EncodedCombined(r))
  {
    Line2TextLayout(r);
    EncodedLine2IsWhole(r);
    FilledLine2Layout(Line2Text(r), Encode(r).line2, r);
  }

  /** Line 2 is the text with spaces turned to filler, then the final digit. */
  lemma FilledLine2Layout(t: string, line2: string, r: MrzRecord)
    requires Line2Fits(r) && |t| == 42
    requires t[..9] == LeftJustify(r.passportNumber, 9, ' ')
    requires t[9] == Damm.CheckDigit(r.passportNumber)
    requires t[10..13] == r.nationality && t[13..19] == r.birthDate
    requires t[19] == Damm.CheckDigit(r.birthDate)
    requires t[20..21] == r.gender && t[21..27] == r.expirationDate
    requires t[27] == Damm.CheckDigit(r.expirationDate)
    requires t[28..] == LeftJustify(r.personalNumber, 14, Filler)
    requires line2 == Fill(t) + [Damm.CheckDigit(EncodedCombined(r))]
    ensures Line2Layout(line2, r)
  {
    assert line2[..42] == Fill(t);
    FillSlice(t, 0, 9);
    FillSlice(t, 10, 13);
    FillSlice(t, 13, 19);
    FillSlice(t, 20, 21);
    FillSlice(t, 21, 27);
    FillSlice(t, 28, 42);
    FillPadded(r.passportNumber, 9, ' ');
    FillPadded(r.personalNumber, 14, Filler);
  }

  // ---------------------------------------------------------------------
  // Check digits written by the encoder validate in the decoder

  /** Turning spaces into filler and padding with filler never touch a digit. */
  lemma {:induction false} FillKeepsDigits(s: string)
    ensures Damm.Digits(Fill(s)) == Damm.Digits(s)
    decreases |s|
  {
    if s != [] {
      assert Fill(s) == Fill([s[0]]) + Fill(s[1..]);
      assert s == [s[0]] + s[1..];
      Damm.DigitsConcat(Fill([s[0]]), Fill(s[1..]));
      Damm.DigitsConcat([s[0]], s[1..]);
      FillKeepsDigits(s[1..]);
    }
  }

  lemma {:induction false} FillerHasNoDigits(k: nat)
    ensures Damm.Digits(Repeat(Filler, k)) == []
    decreases k
  {
    if k > 0 {
      assert Repeat(Filler, k)[1..] == Repeat(Filler, k - 1);
      FillerHasNoDigits(k - 1);
    }
  }

  lemma PaddedFieldDigits(s: string, k: nat)
    ensures Damm.Digits(Fill(s) + Repeat(Filler, k)) == Damm.Digits(s)
  {
    Damm.DigitsConcat(Fill(s), Repeat(Filler, k));
    FillKeepsDigits(s);
    FillerHasNoDigits(k);
  }

  lemma StrippedFieldDigits(s: string)
    ensures Damm.Digits(RightStrip(s, Filler)) == Damm.Digits(s)
  {
    var t := RightStrip(s, Filler);
    RightStripLeavesPadding(s, Filler);
    Damm.DigitsConcat(t, Repeat(Filler, |s| - |t|));
    FillerHasNoDigits(|s| - |t|);
  }

  /** Where the encoder puts the line-2 fields: each field turned to
      filler-for-spaces, the two variable-width ones padded with filler. */
  predicate Line2Slots(line2: string, r: MrzRecord) {
    && Line2Fits(r)
    && |line2| == Line2MinLength
    && line2[..9] == Fill(r.passportNumber) + Repeat(Filler, 9 - |r.passportNumber|)
    && line2[10..13] == Fill(r.nationality)
    && line2[13..19] == Fill(r.birthDate)
    && [line2[20]] == Fill(r.gender)
    && line2[21..27] == Fill(r.expirationDate)
    && line2[28..42] == Fill(r.personalNumber) + Repeat(Filler, 14 - |r.personalNumber|)
  }

  /** The shape the encoder gives line 2 when the line-2 fields fit: the
      field slots and the four check digits between them. */
  predicate Line2Layout(line2: string, r: MrzRecord) {
    && Line2Slots(line2, r)
    && line2[9] == Damm.CheckDigit(r.passportNumber)
    && line2[19] == Damm.CheckDigit(r.birthDate)
    && line2[27] == Damm.CheckDigit(r.expirationDate)
    && line2[42] == Damm.CheckDigit(EncodedCombined(r))
  }

  lemma LaidOutChecksHold(line2: string, r: MrzRecord)
    requires Line2Layout(line2, r)
    ensures PassportCheckHolds(line2) && BirthCheckHolds(line2) && ExpirationCheckHolds(line2)
  {
    PaddedFieldDigits(r.passportNumber, 9 - |r.passportNumber|);
    Damm.SameDigitsSameCheckDigit(line2[..9], r.passportNumber);
    FillKeepsDigits(r.birthDate);
    Damm.SameDigitsSameCheckDigit(line2[13..19], r.birthDate);
    FillKeepsDigits(r.expirationDate);
    Damm.SameDigitsSameCheckDigit(line2[21..27], r.expirationDate);
  }

  lemma CombinedDigits(a: string, b: string, c: string, d: string)
    ensures Damm.Digits(a + b + c + d)
         == Damm.Digits(a) + Damm.Digits(b) + Damm.Digits(c) + Damm.Digits(d)
  {
    Damm.DigitsConcat(a + b + c, d);
    Damm.DigitsConcat(a + b, c);
    Damm.DigitsConcat(a, b);
  }

  /** Each field read back from its slot has the digits of the field. */
  lemma SlotDigits(line2: string, r: MrzRecord)
    requires Line2Slots(line2, r)
    ensures Damm.Digits(line2[..9]) == Damm.Digits(r.passportNumber)
    ensures Damm.Digits(line2[13..19]) == Damm.Digits(r.birthDate)
    ensures Damm.Digits(line2[21..27]) == Damm.Digits(r.expirationDate)
    ensures Damm.Digits(RightStrip(line2[28..42], Filler)) == Damm.Digits(r.personalNumber)
  {
    PaddedSlotDigits(line2[..9], r.passportNumber, 9 - |r.passportNumber|);
    FixedSlotDigits(line2[13..19], r.birthDate);
    FixedSlotDigits(line2[21..27], r.expirationDate);
    StrippedSlotDigits(line2[28..42], r.personalNumber, 14 - |r.personalNumber|);
  }

  lemma PaddedSlotDigits(slot: string, s: string, k: nat)
    requires slot == Fill(s) + Repeat(Filler, k)
    ensures Damm.Digits(slot) == Damm.Digits(s)
  {
    PaddedFieldDigits(s, k);
  }

  lemma FixedSlotDigits(slot: string, s: string)
    requires slot == Fill(s)
    ensures Damm.Digits(slot) == Damm.Digits(s)
  {
    FillKeepsDigits(s);
  }

  lemma StrippedSlotDigits(slot: string, s: string, k: nat)
    requires slot == Fill(s) + Repeat(Filler, k)
    ensures Damm.Digits(RightStrip(slot, Filler)) == Damm.Digits(s)
  {
    PaddedFieldDigits(s, k);
    StrippedFieldDigits(slot);
  }

  /** Joining fields with the same digits gives the same check digit. */
  lemma JoinedSameCheckDigit(a: string, b: string, c: string, d: string,
                             a': string, b': string, c': string, d': string)
    requires Damm.Digits(a) == Damm.Digits(a') && Damm.Digits(b) == Damm.Digits(b')
    requires Damm.Digits(c) == Damm.Digits(c') && Damm.Digits(d) == Damm.Digits(d')
    ensures Damm.CheckDigit(a + b + c + d) == Damm.CheckDigit(a' + b' + c' + d')
  {
    CombinedDigits(a, b, c, d);
    CombinedDigits(a', b', c', d');
    Damm.SameDigitsSameCheckDigit(a + b + c + d, a' + b' + c' + d');
  }

  lemma LaidOutFinalCheckHolds(line2: string, r: MrzRecord)
    requires Line2Layout(line2, r)
    ensures FinalCheckHolds(line2)
  {
    SlotDigits(line2, r);
    JoinedSameCheckDigit(line2[..9], line2[13..19], line2[21..27], RightStrip(line2[28..42], Filler),
                         r.passportNumber, r.birthDate, r.expirationDate, r.personalNumber);
    assert Damm.CheckDigit(DecodedCombined(line2)) == line2[42];
  }

  /** The decoder's four checks all pass on an encoded line 2 whose fields
      fit their slots. */
  lemma EncodedChecksHold(r: MrzRecord)
    requires Line2Fits(r)
    ensures var line2 := Encode(r).line2;
      && |line2| == Line2MinLength
      && PassportCheckHolds(line2) && BirthCheckHolds(line2)
      && ExpirationCheckHolds(line2) && FinalCheckHolds(line2)
  {
    EncodedLine2Layout(r);
    LaidOutChecksHold(Encode(r).line2, r);
    LaidOutFinalCheckHolds(Encode(r).line2, r);
  }

  /** Decoding what the encoder wrote always succeeds once the line-2 fields
      fit their slots, whatever the line-1 fields are. */
  lemma EncodedLinesDecode(r: MrzRecord)
    requires Line2Fits(r)
    ensures Decode(Encode(r).line1, Encode(r).line2).Valid?
  {
    EncodedChecksHold(r);
    assert Encode(r).line1 != [];
  }

  // ---------------------------------------------------------------------
  // Round trip

  /** The name read back from line 1 is the name's words: space-to-filler
      and the filler padding make no difference. */
  lemma NameSurvivesPadding(name: string, k: nat)
    ensures NameOf(Fill(name) + Repeat(Filler, k)) == NameOf(name)
  {
    var spaced := ReplaceChar(Fill(name) + Repeat(Filler, k), Filler, ' ');
    assert spaced == ReplaceChar(name, Filler, ' ') + Repeat(' ', k);
    TrailingWhitespaceIgnored(ReplaceChar(name, Filler, ' '), Repeat(' ', k));
  }

  lemma StripUndoesPadding(s: string, k: nat)
    requires s == [] || (s[0] != Filler && s[|s| - 1] != Filler)
    ensures Strip(s + Repeat(Filler, k), Filler) == s
  {
    RightStripUndoesPadding(s, Filler, k);
  }

  lemma PaddedFieldComesBack(s: string, k: nat)
    requires ' ' !in s
    requires s == [] || (s[0] != Filler && s[|s| - 1] != Filler)
    ensures Strip(Fill(s) + Repeat(Filler, k), Filler) == s
  {
    FillWithoutSpaces(s);
    StripUndoesPadding(s, k);
  }

  lemma PersonalNumberComesBack(s: string, k: nat)
    requires ' ' !in s
    requires s == [] || s[|s| - 1] != Filler
    ensures RightStrip(Fill(s) + Repeat(Filler, k), Filler) == s
  {
    FillWithoutSpaces(s);
    RightStripUndoesPadding(s, Filler, k);
  }

  lemma Line2FieldsComeBack(line2: string, r: MrzRecord)
    requires Line2Slots(line2, r) && RoundTrips(r)
    ensures Strip(line2[..9], Filler) == r.passportNumber
    ensures line2[10..13] == r.nationality
    ensures line2[13..19] == r.birthDate
    ensures [line2[20]] == r.gender
    ensures line2[21..27] == r.expirationDate
    ensures RightStrip(line2[28..42], Filler) == r.personalNumber
  {
    FixedFieldComesBack(line2[10..13], r.nationality);
    FixedFieldComesBack(line2[13..19], r.birthDate);
    FixedFieldComesBack([line2[20]], r.gender);
    FixedFieldComesBack(line2[21..27], r.expirationDate);
    PassportSlotComesBack(line2[..9], r.passportNumber, 9 - |r.passportNumber|);
    PersonalSlotComesBack(line2[28..42], r.personalNumber, 14 - |r.personalNumber|);
  }

  lemma PassportSlotComesBack(slot: string, s: string, k: nat)
    requires ' ' !in s
    requires s == [] || (s[0] != Filler && s[|s| - 1] != Filler)
    requires slot == Fill(s) + Repeat(Filler, k)
    ensures Strip(slot, Filler) == s
  {
    PaddedFieldComesBack(s, k);
  }

  lemma PersonalSlotComesBack(slot: string, s: string, k: nat)
    requires ' ' !in s
    requires s == [] || s[|s| - 1] != Filler
    requires slot == Fill(s) + Repeat(Filler, k)
    ensures RightStrip(slot, Filler) == s
  {
    PersonalNumberComesBack(s, k);
  }

  lemma FixedFieldComesBack(slot: string, s: string)
    requires ' ' !in s && slot == Fill(s)
    ensures slot == s
  {
    FillWithoutSpaces(s);
  }

  lemma Line1FieldsComeBack(line1: string, r: MrzRecord)
    requires RoundTrips(r)
    requires line1 == Fill(r.documentType) + [Filler] + Fill(r.issuingCountry)
                      + Fill(r.name) + Repeat(Filler, 39 - |r.name|)
    ensures RemoveChar(Slice(line1, 0, 2), Filler) == r.documentType
    ensures Slice(line1, 2, 5) == r.issuingCountry
    ensures NameOf(From(line1, 5)) == NameOf(r.name)
  {
    FillWithoutSpaces(r.documentType);
    FillWithoutSpaces(r.issuingCountry);
    assert line1[..2] == r.documentType + [Filler];
    assert RemoveChar(r.documentType + [Filler], Filler) == r.documentType;
    assert line1[2..5] == r.issuingCountry;
    assert line1[5..] == Fill(r.name) + Repeat(Filler, 39 - |r.name|);
    NameSurvivesPadding(r.name, 39 - |r.name|);
  }

  /** Decoding two lines laid out from a record gives the record back, with
      its name read as words. */
  lemma LaidOutLinesDecode(line1: string, line2: string, r: MrzRecord)
    requires RoundTrips(r)
    requires line1 == Fill(r.documentType) + [Filler] + Fill(r.issuingCountry)
                      + Fill(r.name) + Repeat(Filler, 39 - |r.name|)
    requires Line2Layout(line2, r)
    ensures Decode(line1, line2) == Valid(r.(name := NameOf(r.name)))
  {
    LaidOutChecksHold(line2, r);
    LaidOutFinalCheckHolds(line2, r);
    Line1FieldsComeBack(line1, r);
    Line2FieldsComeBack(line2, r);
  }

  /** `decode(encode(R))` returns every field of R unchanged, except that the
      name comes back as its words separated by single spaces. */
  lemma RoundTrip(r: MrzRecord)
    requires RoundTrips(r)
    ensures Decode(Encode(r).line1, Encode(r).line2) == Valid(r.(name := NameOf(r.name)))
  {
    EncodedLine1Layout(r);
    EncodedLine2Layout(r);
    LaidOutLinesDecode(Encode(r).line1, Encode(r).line2, r);
  }

  const Combs: MrzRecord := MrzRecord("P", "TJK", "COMBS<<ADDISON<JANE", "V855996J7", "TJK",
                                      "720916", "M", "090507", "MI797251T")

  lemma CombsNameNormalizes()
    ensures NameOf("COMBS<<ADDISON<JANE") == "COMBS ADDISON JANE"
  {
    CombsNameSpaced();
    DoubleSpaceSplitsLikeOne("COMBS", "ADDISON JANE");
    CombsWordsJoined();
    SplitJoinInverse(["COMBS", "ADDISON", "JANE"]);
  }

  lemma CombsNameSpaced()
    ensures ReplaceChar("COMBS<<ADDISON<JANE", Filler, ' ') == "COMBS" + "  " + "ADDISON JANE"
  {
  }

  lemma CombsWordsJoined()
    ensures "COMBS" + " " + "ADDISON JANE" == Join(" ", ["COMBS", "ADDISON", "JANE"])
    ensures Join(" ", ["COMBS", "ADDISON", "JANE"]) == "COMBS ADDISON JANE"
  {
  }

  /** The test-suite record: encoding then decoding gives every field back,
      with the name's filler turned into single spaces. */
  lemma CombsAddisonJaneRoundTrip()
    ensures Decode(Encode(Combs).line1, Encode(Combs).line2)
            == Valid(Combs.(name := "COMBS ADDISON JANE"))
  {
    RoundTrip(Combs);
    CombsNameNormalizes();
  }

  lemma CombsFinalDigit()
    ensures |Encode(Combs).line2| == Line2MinLength
    ensures Encode(Combs).line2[42] == '4'
  {
    EncodedLine2Layout(Combs);
    CombinedDigitIsFour();
  }

  /** Without spaces in the line-1 fields, line 1 starts with the type, a
      filler, the country and the name exactly as given. */
  lemma EncodedLine1StartsWithFields(r: MrzRecord)
    requires Line1Fits(r)
    requires ' ' !in r.documentType && ' ' !in r.issuingCountry && ' ' !in r.name
    ensures r.documentType + [Filler] + r.issuingCountry + r.name <= Encode(r).line1
  {
    EncodedLine1Layout(r);
    FillWithoutSpaces(r.documentType);
    FillWithoutSpaces(r.issuingCountry);
    FillWithoutSpaces(r.name);
  }

  /** Without spaces in the passport number, line 2 starts with it. */
  lemma EncodedLine2StartsWithPassport(r: MrzRecord)
    requires Line2Fits(r) && ' ' !in r.passportNumber
    ensures r.passportNumber <= Encode(r).line2
  {
    EncodedLine2Layout(r);
    FillWithoutSpaces(r.passportNumber);
    var line2 := Encode(r).line2;
    assert line2[..|r.passportNumber|] == line2[..9][..|r.passportNumber|];
  }

  /** The prefixes the test suite expects of the encoded test record. */
  lemma CombsEncodedPrefixes()
    ensures "P<TJKCOMBS" <= Encode(Combs).line1
    ensures "V855996J7" <= Encode(Combs).line2
  {
    CombsLine1Head();
    CombsLine2Head();
  }

  lemma CombsLine2Head()
    ensures "V855996J7" <= Encode(Combs).line2
  {
    EncodedLine2StartsWithPassport(Combs);
  }

  lemma CombsLine1Head()
    ensures "P<TJKCOMBS" <= Encode(Combs).line1
  {
    EncodedLine1StartsWithFields(Combs);
    CombsLine1Fields();
    PrefixTransitive("P<TJKCOMBS", Combs.documentType + [Filler] + Combs.issuingCountry + Combs.name,
                     Encode(Combs).line1);
  }

  lemma CombsLine1Fields()
    ensures "P<TJKCOMBS" <= Combs.documentType + [Filler] + Combs.issuingCountry + Combs.name
  {
    var head := Combs.documentType + [Filler] + Combs.issuingCountry + Combs.name;
    assert head[..10] == "P<TJKCOMBS";
  }

  lemma PrefixTransitive(a: string, b: string, c: string)
    requires a <= b && b <= c
    ensures a <= c
  {
    assert c[..|a|] == c[..|b|][..|a|];
  }

  /** The test suite's malformed inputs: either line empty, or a line 2
      too short to index. */
  lemma MalformedTestCases()
    ensures Decode("", "") == MissingData
    ensures Decode("P<TJKCOMBS<<ADDISON<JANE<<<<<<<<<<<<<<<<<<<<", "") == MissingData
    ensures Decode("INVALID_LINE1", "INVALID_LINE2") == InvalidFormat
  {
  }

  /** The test suite's corruption: replacing the last character of the
      encoded line 2 with '9' fails the combined check. */
  lemma CombsAddisonJaneBadFinalDigit()
    ensures var line2 := Encode(Combs).line2;
      |line2| == Line2MinLength
      && Decode(Encode(Combs).line1, line2[..42] + "9") == ChecksumFailed(PersonalNumber)
  {
    CombsFinalDigit();
    FinalDigitReplaced(Combs, '9');
  }

  /** Overwriting the final character of a well-formed encoding with any
      other character fails the combined check. */
  lemma FinalDigitReplaced(r: MrzRecord, c: char)
    requires Line2Fits(r)
    requires c != Encode(r).line2[|Encode(r).line2| - 1]
    ensures var line2 := Encode(r).line2;
      |line2| == Line2MinLength
      && Decode(Encode(r).line1, line2[..42] + [c]) == ChecksumFailed(PersonalNumber)
  {
    EncodedLine2Layout(r);
    var line2 := Encode(r).line2;
    assert line2[..42] + [c] == line2[42 := c];
    CorruptedCheckDigitReported(r, PersonalNumber, c);
  }

  lemma CombsFoldStep1()
    ensures Damm.Fold(0, "V855996J7") == 7
  {
  }

  lemma CombsFoldStep2()
    ensures Damm.Fold(7, "720916") == 6
  {
  }

  lemma CombsFoldStep3()
    ensures Damm.Fold(6, "090507") == 5
  {
  }

  lemma CombsFoldStep4()
    ensures Damm.Fold(5, "MI797251T") == 4
  {
  }

  /** The check digit over the test record's combined fields is 4. */
  lemma CombinedDigitIsFour()
    ensures Damm.CheckDigit(EncodedCombined(Combs)) == '4'
  {
    var a, b, c, d := Combs.passportNumber, Combs.birthDate, Combs.expirationDate, Combs.personalNumber;
    CombsFoldStep1();
    CombsFoldStep2();
    CombsFoldStep3();
    CombsFoldStep4();
    Damm.FoldConcat(0, a, b);
    Damm.FoldConcat(0, a + b, c);
    Damm.FoldConcat(0, a + b + c, d);
    assert Damm.Fold(0, EncodedCombined(Combs)) == 4;
  }

  // ---------------------------------------------------------------------
  // Corrupted check digits

  /** Where each check digit sits on line 2. */
  function CheckPosition(f: CheckedField): nat {
    match f
    case PassportNumber => 9
    case BirthDate => 19
    case ExpirationDate => 27
    case PersonalNumber => 42
  }

  /** Changing any one embedded check digit of a well-formed encoding makes
      the decoder report exactly that field. */
  lemma CorruptedCheckDigitReported(r: MrzRecord, f: CheckedField, c: char)
    requires Line2Fits(r)
    requires c != Encode(r).line2[CheckPosition(f)]
    ensures Decode(Encode(r).line1, Encode(r).line2[CheckPosition(f) := c]) == ChecksumFailed(f)
  {
    var line2 := Encode(r).line2;
    EncodedChecksHold(r);
    var bad := line2[CheckPosition(f) := c];
    assert Encode(r).line1 != [];
    assert bad[..9] == line2[..9];
    assert bad[13..19] == line2[13..19];
    assert bad[21..27] == line2[21..27];
    assert bad[28..42] == line2[28..42];
    assert DecodedCombined(bad) == DecodedCombined(line2);
  }

  /** With both the passport and the final check digit corrupted, only the
      passport is reported: validation stops at the first failure. */
  lemma FirstCorruptionWins(r: MrzRecord, c: char, d: char)
    requires Line2Fits(r)
    requires c != Encode(r).line2[9]
    ensures Decode(Encode(r).line1, Encode(r).line2[9 := c][42 := d])
            == ChecksumFailed(PassportNumber)
  {
    var line2 := Encode(r).line2;
    EncodedChecksHold(r);
    var bad := line2[9 := c][42 := d];
    assert Encode(r).line1 != [];
    assert bad[..9] == line2[..9];
  }

  // ---------------------------------------------------------------------
  // What the decoder reads

  /** Only the first 43 characters of line 2 matter to the decoder. */
  lemma DecodeIgnoresLine2Tail(line1: string, line2: string, tail: string)
    requires |line2| >= Line2MinLength
    ensures Decode(line1, line2 + tail) == Decode(line1, line2)
  {
    var l := line2 + tail;
    assert l[..9] == line2[..9];
    assert l[10..13] == line2[10..13];
    assert l[13..19] == line2[13..19];
    assert l[21..27] == line2[21..27];
    assert l[28..42] == line2[28..42];
    assert DecodedCombined(l) == DecodedCombined(line2);
  }

  /** The name the decoder returns is already normal: reading it as a name
      field again gives it back. */
  lemma NameOfIdempotent(field: string)
    ensures NameOf(NameOf(field)) == NameOf(field)
  {
    var ws := Split(ReplaceChar(field, Filler, ' '));
    var n := NameOf(field);
    assert ReplaceChar(n, Filler, ' ') == n;
    SplitJoinInverse(ws);
  }

  lemma NameOfShrinks(field: string)
    ensures |NameOf(field)| <= |field|
  {
    SplitJoinShrinks(ReplaceChar(field, Filler, ' '));
  }

  /** A decoded record is a fixed point: encoding it and decoding again
      returns it unchanged. */
  lemma DecodedRecordIsFixedPoint(r: MrzRecord)
    requires RoundTrips(r)
    ensures var d := r.(name := NameOf(r.name));
      Decode(Encode(d).line1, Encode(d).line2) == Valid(d)
  {
    var d := r.(name := NameOf(r.name));
    NameOfShrinks(r.name);
    RoundTrip(d);
    NameOfIdempotent(r.name);
  }

  // ---------------------------------------------------------------------
  // Where the layout breaks down

  /** The encoder always writes a filler after the document type, while the
      decoder reads the type from [0, 2) and the country from [2, 5). A
      two-letter type therefore pushes the country one place right: the
      decoded country is a filler followed by the first two letters of the
      real one, and the type's own letters come back unchanged. */
  lemma TwoLetterDocumentTypeShiftsCountry(r: MrzRecord)
    requires |r.documentType| == 2 && |r.issuingCountry| == 3 && Line2Fits(r)
    requires ' ' !in r.documentType && Filler !in r.documentType
    requires ' ' !in r.issuingCountry && Filler !in r.issuingCountry
    ensures var d := Decode(Encode(r).line1, Encode(r).line2);
      && d.Valid?
      && d.record.documentType == r.documentType
      && d.record.issuingCountry == [Filler] + r.issuingCountry[..2]
      && d.record.issuingCountry != r.issuingCountry
  {
    TwoLetterLine1Fields(r);
    EncodedLinesDecode(r);
    assert RemoveChar(r.documentType, Filler) == r.documentType;
    assert r.issuingCountry[0] != Filler;
  }

  lemma TwoLetterLine1Fields(r: MrzRecord)
    requires |r.documentType| == 2 && |r.issuingCountry| == 3
    requires ' ' !in r.documentType && ' ' !in r.issuingCountry
    ensures Slice(Encode(r).line1, 0, 2) == r.documentType
    ensures Slice(Encode(r).line1, 2, 5) == [Filler] + r.issuingCountry[..2]
  {
    var line1 := Encode(r).line1;
    EncodedLine1Prefix(r);
    var head := r.documentType + [Filler] + r.issuingCountry;
    FillWithoutSpaces(head);
    assert line1[..6] == head;
  }

  /** The example behind it: the default record with document type "PD"
      decodes with country "<UT" instead of "UTO". */
  const Diplomatic: MrzRecord := DefaultRecord.(documentType := "PD")

  lemma PassportDiplomaticShiftsCountry()
    ensures var d := Decode(Encode(Diplomatic).line1, Encode(Diplomatic).line2);
      d.Valid? && d.record.documentType == "PD" && d.record.issuingCountry == "<UT"
  {
    assert Line2Fits(Diplomatic);
    assert [Filler] + Diplomatic.issuingCountry[..2] == "<UT";
    TwoLetterDocumentTypeShiftsCountry(Diplomatic);
  }

  /** Line 1 always starts with the document type, a filler and the country. */
  lemma EncodedLine1Prefix(r: MrzRecord)
    requires |r.documentType| + 1 + |r.issuingCountry| <= LineLength
    ensures var n := |r.documentType| + 1 + |r.issuingCountry|;
      n <= |Encode(r).line1|
      && Encode(r).line1[..n] == Fill(r.documentType + [Filler] + r.issuingCountry)
  {
    var n := |r.documentType| + 1 + |r.issuingCountry|;
    var t := Line1Text(r);
    var head := r.documentType + [Filler] + r.issuingCountry;
    assert t[..n] == head;
    FillSlice(t, 0, n);
  }

  // ---------------------------------------------------------------------
  // The field mapping

  /** A mapping holding all nine keys is read back as the record it came from. */
  lemma MappingRoundTrip(r: MrzRecord)
    ensures RecordFromMapping(RecordToMapping(r)) == r
  {
  }

  /** Every absent key falls back to its default. */
  lemma EmptyMappingGivesDefaults()
    ensures EncodeMapping(map[]) == Encode(DefaultRecord)
  {
  }
}

=== FILE: pystr.dfy ===
/** The Python `str` operations the MRZ codec is built from, on strings as
    `seq<char>`. Slicing clamps its bounds as Python does, so a slice never
    fails; only single-character indexing can. */
module PyStr {

  /** `s[i:j]` for non-negative bounds. */
  function Slice(s: string, i: nat, j: nat): (r: string)
    ensures |r| <= |s|
    ensures i <= j <= |s| ==> r == s[i..j]
    ensures i <= |s| <= j ==> r == s[i..]
    ensures j <= i || |s| <= i ==> r == []
  {
    var lo := if i < |s| then i else |s|;
    var hi := if j < |s| then j else |s|;
    if hi <= lo then [] else s[lo..hi]
  }

  /** `s[i:]` for a non-negative bound: the same as `s[i:len(s)]`. */
  function From(s: string, i: nat): (r: string)
    ensures r == Slice(s, i, |s|)
    ensures i <= |s| ==> r == s[i..]
  {
    if i <= |s| then s[i..] else []
  }

  /** `s[:n]` for a non-negative bound. */
  function Take(s: string, n: nat): (r: string)
    ensures |r| == if |s| <= n then |s| else n
    ensures r <= s
  {
    if |s| <= n then s else s[..n]
  }

  /** `c * k`. */
  function Repeat(c: char, k: nat): (r: string)
    ensures |r| == k
    ensures forall i | 0 <= i < k :: r[i] == c
  {
    seq(k, _ => c)
  }

  /** `s.ljust(n, c)`, and also `f"{s:<n}"` when c is a space: pad on the
      right up to n characters, never truncate. */
  function LeftJustify(s: string, n: nat, c: char): (r: string)
    ensures |r| == if |s| < n then n else |s|
    ensures r[..|s|] == s
    ensures forall i | |s| <= i < |r| :: r[i] == c
  {
    if |s| < n then s + Repeat(c, n - |s|) else s
  }

  /** `s.replace(a, b)` for single characters a and b. */
  function ReplaceChar(s: string, a: char, b: char): (r: string)
    // The ensures unfold the comprehension for the proofs; ReplaceCharClears
    // and ReplaceCharConcat are the properties callers use.
    ensures |r| == |s|
    ensures forall i | 0 <= i < |s| :: r[i] == if s[i] == a then b else s[i]
  {
    seq(|s|, i requires 0 <= i < |s| => if s[i] == a then b else s[i])
  }

  /** `s.replace(a, "")` for a single character a. */
  function RemoveChar(s: string, a: char): (r: string)
    ensures a !in r
    ensures a !in s ==> r == s
    ensures |r| <= |s|
  {
    if s == [] then []
    else (if s[0] == a then [] else [s[0]]) + RemoveChar(s[1..], a)
  }

  /** `s.replace(a + a, b)`: non-overlapping pairs, scanned from the left. */
  function ReplacePair(s: string, a: char, b: char): string
    decreases |s|
  {
    if |s| >= 2 && s[0] == a && s[1] == a then [b] + ReplacePair(s[2..], a, b)
    else if s == [] then []
    else [s[0]] + ReplacePair(s[1..], a, b)
  }

  /** A string with no two adjacent a's has no pair to replace. */
  lemma {:induction false} ReplacePairWithoutPairs(s: string, a: char, b: char)
    requires forall i | 0 <= i < |s| - 1 :: !(s[i] == a && s[i + 1] == a)
    ensures ReplacePair(s, a, b) == s
    decreases |s|
  {
    if s != [] {
      ReplacePairWithoutPairs(s[1..], a, b);
      assert [s[0]] + s[1..] == s;
    }
  }

  /** Pairs are taken from the left and do not overlap: five fillers become
      two spaces and a filler left over. */
  lemma ReplacePairFromTheLeft()
    ensures ReplacePair("<<<<<", '<', ' ') == "  <"
  {
  }

  /** `c * (k + 1)` is c followed by `c * k`. */
  lemma RepeatCons(c: char, k: nat)
    ensures Repeat(c, k + 1) == [c] + Repeat(c, k)
  {
    assert forall i | 0 <= i < k + 1 :: Repeat(c, k + 1)[i] == ([c] + Repeat(c, k))[i];
  }

  /** A maximal run of k a's becomes k / 2 b's, followed by one a left over
      when k is odd; the rest of the string is replaced on its own. */
  lemma {:induction false} ReplacePairOfRun(a: char, b: char, k: nat, t: string)
    requires t == [] || t[0] != a
    ensures ReplacePair(Repeat(a, k) + t, a, b)
         == Repeat(b, k / 2) + Repeat(a, k % 2) + ReplacePair(t, a, b)
    decreases k
  {
    if k >= 2 {
      var rest := Repeat(a, k - 2) + t;
      RepeatCons(a, k - 1);
      RepeatCons(a, k - 2);
      assert Repeat(a, k) + t == [a, a] + rest;
      assert (Repeat(a, k) + t)[2..] == rest;
      ReplacePairOfRun(a, b, k - 2, t);
      RepeatCons(b, k / 2 - 1);
      assert k / 2 == (k - 2) / 2 + 1 && k % 2 == (k - 2) % 2;
    } else if k == 1 {
      RepeatCons(a, 0);
      assert Repeat(a, 1) + t == [a] + t;
      assert ([a] + t)[1..] == t;
    } else {
      assert Repeat(a, 0) + t == t;
    }
  }

  /** `s.rstrip(a)`: the longest prefix not ending in a; everything cut off is a. */
  function RightStrip(s: string, a: char): (r: string)
    ensures r <= s
    ensures r == [] || r[|r| - 1] != a
    ensures forall i | |r| <= i < |s| :: s[i] == a
    decreases |s|
  {
    if s != [] && s[|s| - 1] == a then RightStrip(s[..|s| - 1], a) else s
  }

  /** `s.lstrip(a)`: the longest suffix not starting with a; everything cut off is a. */
  function LeftStrip(s: string, a: char): (r: string)
    ensures |r| <= |s| && r == s[|s| - |r|..]
    ensures r == [] || r[0] != a
    ensures forall i | 0 <= i < |s| - |r| :: s[i] == a
    decreases |s|
  {
    if s != [] && s[0] == a then
      var r := LeftStrip(s[1..], a);
      assert s[1..][|s| - 1 - |r|..] == s[|s| - |r|..];
      r
    else s
  }

  /** `s.strip(a)`. */
  function Strip(s: string, a: char): string {
    LeftStrip(RightStrip(s, a), a)
  }

  /** `strip(a)` keeps a middle stretch of s that neither starts nor ends
      with a, and everything it cuts off on either side is a. */
  lemma StripKeepsMiddle(s: string, a: char)
    ensures var r := Strip(s, a);
      var i := |RightStrip(s, a)| - |r|;
      && 0 <= i && i + |r| <= |s| && r == s[i..i + |r|]
      && (r == [] || (r[0] != a && r[|r| - 1] != a))
      && (forall k | 0 <= k < i :: s[k] == a)
      && (forall k | i + |r| <= k < |s| :: s[k] == a)
  {
    var t := RightStrip(s, a);
    MiddleOfPrefix(s, t, Strip(s, a), a);
  }

  /** r is a suffix of t cut after a run of a, and t is a prefix of s cut
      before a run of a. */
  lemma MiddleOfPrefix(s: string, t: string, r: string, a: char)
    requires t <= s && (t == [] || t[|t| - 1] != a)
    requires forall k | |t| <= k < |s| :: s[k] == a
    requires |r| <= |t| && r == t[|t| - |r|..] && (r == [] || r[0] != a)
    requires forall k | 0 <= k < |t| - |r| :: t[k] == a
    ensures r == s[|t| - |r|..|t|]
    ensures r == [] || r[|r| - 1] != a
    ensures forall k | 0 <= k < |t| - |r| :: s[k] == a
  {
    forall k | 0 <= k < |t| - |r|
      ensures s[k] == a
    {
      assert s[k] == t[k];
    }
    if r != [] {
      assert r[|r| - 1] == t[|t| - 1];
    }
  }

  /** `c.isspace()`: the characters `str.split()` with no argument splits on. */
  predicate IsSpace(c: char) {
    || ('\t' <= c <= '\r')
    || ('\U{1C}' <= c <= '\U{1F}')
    || c == ' '
    || c == '\U{85}'
    || c == '\U{A0}'
    || c == '\U{1680}'
    || ('\U{2000}' <= c <= '\U{200A}')
    || c == '\U{2028}'
    || c == '\U{2029}'
    || c == '\U{202F}'
    || c == '\U{205F}'
    || c == '\U{3000}'
  }

  /** A non-empty run of non-whitespace characters. */
  predicate IsWord(w: string) {
    w != [] && forall i | 0 <= i < |w| :: !IsSpace(w[i])
  }

  // ---------------------------------------------------------------------
  // `s.split()`, as a left-to-right scan: the words found so far and the
  // word being read.

  datatype Splitter = Splitter(words: seq<string>, word: string)

  /** A scan state that can only have come from reading text. */
  predicate WellFormed(st: Splitter) {
    && (forall k | 0 <= k < |st.words| :: IsWord(st.words[k]))
    && (forall i | 0 <= i < |st.word| :: !IsSpace(st.word[i]))
  }

  /** Close the word being read, if any. */
  function Flush(st: Splitter): Splitter {
    if st.word == [] then st else Splitter(st.words + [st.word], [])
  }

  /** Read one character. */
  function Feed(st: Splitter, c: char): Splitter {
    if IsSpace(c) then Flush(st) else st.(word := st.word + [c])
  }

  /** Read every character of s. */
  function Scan(st: Splitter, s: string): Splitter
    decreases |s|
  {
    if s == [] then st else Scan(Feed(st, s[0]), s[1..])
  }

  /** `s.split()`: the maximal runs of non-whitespace characters, in order. */
  function Split(s: string): (ws: seq<string>)
    ensures forall k | 0 <= k < |ws| :: IsWord(ws[k])
  {
    ScanKeepsWellFormed(Splitter([], []), s);
    Flush(Scan(Splitter([], []), s)).words
  }

  /** `sep.join(ws)`. */
  function Join(sep: string, ws: seq<string>): string
    decreases |ws|
  {
    if ws == [] then [] else if |ws| == 1 then ws[0] else ws[0] + sep + Join(sep, ws[1..])
  }

  // ---------------------------------------------------------------------
  // Lemmas about the scan

  lemma {:induction false} ScanKeepsWellFormed(st: Splitter, s: string)
    requires WellFormed(st)
    ensures WellFormed(Scan(st, s)) && WellFormed(Flush(Scan(st, s)))
    decreases |s|
  {
    if s != [] {
      var st' := Feed(st, s[0]);
      assert WellFormed(st');
      ScanKeepsWellFormed(st', s[1..]);
    }
  }

  lemma {:induction false} ScanConcat(st: Splitter, a: string, b: string)
    ensures Scan(st, a + b) == Scan(Scan(st, a), b)
    decreases |a|
  {
    if a != [] {
      assert (a + b)[0] == a[0];
      assert (a + b)[1..] == a[1..] + b;
      ScanConcat(Feed(st, a[0]), a[1..], b);
    } else {
      assert a + b == b;
    }
  }

  /** Reading whitespace only closes the current word; more whitespace
      changes nothing further. */
  lemma {:induction false} WhitespaceOnlyFlushes(st: Splitter, t: string)
    requires forall i | 0 <= i < |t| :: IsSpace(t[i])
    ensures Flush(Scan(st, t)) == Flush(st)
    decreases |t|
  {
    if t != [] {
      WhitespaceOnlyFlushes(Flush(st), t[1..]);
    }
  }

  /** Trailing whitespace does not change the words. */
  lemma TrailingWhitespaceIgnored(s: string, t: string)
    requires forall i | 0 <= i < |t| :: IsSpace(t[i])
    ensures Split(s + t) == Split(s)
  {
    ScanConcat(Splitter([], []), s, t);
    WhitespaceOnlyFlushes(Scan(Splitter([], []), s), t);
  }

  /** Two spaces in a row split like one. */
  lemma DoubleSpaceSplitsLikeOne(a: string, b: string)
    ensures Split(a + "  " + b) == Split(a + " " + b)
  {
    var st := Scan(Splitter([], []), a);
    ScanConcat(Splitter([], []), a + "  ", b);
    ScanConcat(Splitter([], []), a, "  ");
    ScanConcat(Splitter([], []), a + " ", b);
    ScanConcat(Splitter([], []), a, " ");
    assert Scan(st, "  ") == Scan(st, " ");
  }

  /** Reading a run of non-whitespace extends the current word by it. */
  lemma {:induction false} ScanInsideWord(st: Splitter, w: string)
    requires forall i | 0 <= i < |w| :: !IsSpace(w[i])
    ensures Scan(st, w) == st.(word := st.word + w)
    decreases |w|
  {
    if w != [] {
      ScanInsideWord(st.(word := st.word + [w[0]]), w[1..]);
      assert st.word + [w[0]] + w[1..] == st.word + w;
    } else {
      assert st.word + w == st.word;
    }
  }

  lemma {:induction false} ScanJoin(acc: seq<string>, ws: seq<string>)
    requires forall k | 0 <= k < |ws| :: IsWord(ws[k])
    ensures Flush(Scan(Splitter(acc, []), Join(" ", ws))) == Splitter(acc + ws, [])
    decreases |ws|
  {
    var st := Splitter(acc, []);
    if ws == [] {
    } else if |ws| == 1 {
      ScanInsideWord(st, ws[0]);
      assert [] + ws[0] == ws[0];
      assert Join(" ", ws) == ws[0];
      assert ws == [ws[0]];
    } else {
      var w := ws[0];
      ScanConcat(st, w + " ", Join(" ", ws[1..]));
      ScanConcat(st, w, " ");
      ScanInsideWord(st, w);
      assert Scan(Splitter(acc, w), " ") == Splitter(acc + [w], []);
      ScanJoin(acc + [w], ws[1..]);
      assert acc + [w] + ws[1..] == acc + ws;
    }
  }

  /** `sep.join` read from the right: joining one more word appends the
      separator and the word, unless it is the first. */
  lemma {:induction false} JoinAppend(sep: string, ws: seq<string>, w: string)
    ensures Join(sep, ws + [w]) == if ws == [] then w else Join(sep, ws) + sep + w
    decreases |ws|
  {
    if ws == [] {
      assert ws + [w] == [w];
    } else if |ws| == 1 {
      assert (ws + [w])[1..] == [w];
    } else {
      assert (ws + [w])[1..] == ws[1..] + [w];
      JoinAppend(sep, ws[1..], w);
    }
  }

  /** Joining words with single spaces and splitting again gives the words back. */
  lemma SplitJoinInverse(ws: seq<string>)
    requires forall k | 0 <= k < |ws| :: IsWord(ws[k])
    ensures Split(Join(" ", ws)) == ws
  {
    ScanJoin([], ws);
    assert [] + ws == ws;
  }

  /** Words only hold characters of the text they came from. */
  lemma {:induction false} ScanAvoids(st: Splitter, s: string, c: char)
    requires c !in s && c !in st.word
    requires forall k | 0 <= k < |st.words| :: c !in st.words[k]
    ensures c !in Flush(Scan(st, s)).word
    ensures forall k | 0 <= k < |Flush(Scan(st, s)).words| :: c !in Flush(Scan(st, s)).words[k]
    decreases |s|
  {
    if s != [] {
      assert s[0] != c;
      assert s == [s[0]] + s[1..];
      ScanAvoids(Feed(st, s[0]), s[1..], c);
    }
  }

  lemma SplitAvoids(s: string, c: char)
    requires c !in s
    ensures forall k | 0 <= k < |Split(s)| :: c !in Split(s)[k]
  {
    ScanAvoids(Splitter([], []), s, c);
  }

  lemma {:induction false} JoinAvoids(sep: string, ws: seq<string>, c: char)
    requires c !in sep
    requires forall k | 0 <= k < |ws| :: c !in ws[k]
    ensures c !in Join(sep, ws)
    decreases |ws|
  {
    if |ws| > 1 {
      JoinAvoids(sep, ws[1..], c);
    }
  }

  /** Collapsing a pair of `a`s into one `b` and then turning the remaining
      `a`s into `b` reads the same as turning every `a` into `b`, as long as
      `b` is whitespace: two separators in a row split like one. */
  lemma {:induction false} ReplacePairScansAlike(st: Splitter, s: string, a: char, b: char)
    requires IsSpace(b)
    ensures Scan(st, ReplaceChar(ReplacePair(s, a, b), a, b)) == Scan(st, ReplaceChar(s, a, b))
    decreases |s|
  {
    if |s| >= 2 && s[0] == a && s[1] == a {
      ReplaceCharConcat([b], ReplacePair(s[2..], a, b), a, b);
      ReplaceCharConcat(s[..2], s[2..], a, b);
      assert s == s[..2] + s[2..];
      ReplacePairScansAlike(Flush(st), s[2..], a, b);
      assert Feed(Feed(st, b), b) == Flush(st);
      ScanConcat(st, [b, b], ReplaceChar(s[2..], a, b));
    } else if s != [] {
      var c := if s[0] == a then b else s[0];
      ReplaceCharConcat([s[0]], ReplacePair(s[1..], a, b), a, b);
      ReplaceCharConcat([s[0]], s[1..], a, b);
      assert s == [s[0]] + s[1..];
      ReplacePairScansAlike(Feed(st, c), s[1..], a, b);
    }
  }

  /** `replace` works piece by piece: replacing in a concatenation is
      concatenating the replaced pieces. */
  lemma ReplaceCharConcat(x: string, y: string, a: char, b: char)
    ensures ReplaceChar(x + y, a, b) == ReplaceChar(x, a, b) + ReplaceChar(y, a, b)
  {
  }

  /** After replacing a by another character no a is left, and a string
      without a is left as it is. */
  lemma ReplaceCharClears(s: string, a: char, b: char)
    ensures a != b ==> a !in ReplaceChar(s, a, b)
    ensures a !in s ==> ReplaceChar(s, a, b) == s
  {
  }

  /** Removing a character works piece by piece. With `RemoveCharSingle`
      this says every other character is kept, in order. */
  lemma {:induction false} RemoveCharConcat(x: string, y: string, a: char)
    ensures RemoveChar(x + y, a) == RemoveChar(x, a) + RemoveChar(y, a)
    decreases |x|
  {
    if x != [] {
      var head := if x[0] == a then [] else [x[0]];
      assert (x + y)[0] == x[0] && (x + y)[1..] == x[1..] + y;
      assert RemoveChar(x + y, a) == head + RemoveChar(x[1..] + y, a);
      RemoveCharConcat(x[1..], y, a);
    } else {
      assert x + y == y;
    }
  }

  /** On one character, removal drops it exactly when it is the removed one. */
  lemma RemoveCharSingle(c: char, a: char)
    ensures RemoveChar([c], a) == if c == a then [] else [c]
  {
    assert [c][1..] == [];
  }

  // ---------------------------------------------------------------------
  // What `split` returns

  lemma SplitEmpty()
    ensures Split([]) == []
  {
  }

  /** A single word splits to itself. */
  lemma SplitWord(w: string)
    requires IsWord(w)
    ensures Split(w) == [w]
  {
    ScanInsideWord(Splitter([], []), w);
    assert [] + w == w;
  }

  /** A whitespace character separates: the words of a + c + b are the words
      of a followed by the words of b. With `SplitEmpty` and `SplitWord` this
      fixes `Split` on every string: the maximal runs of non-whitespace, in
      order. */
  lemma SplitAtSpace(a: string, c: char, b: string)
    requires IsSpace(c)
    ensures Split(a + [c] + b) == Split(a) + Split(b)
  {
    var start := Splitter([], []);
    var sa := Scan(start, a);
    ScanConcat(start, a + [c], b);
    ScanConcat(start, a, [c]);
    assert Scan(sa, [c]) == Flush(sa);
    assert Flush(sa) == Splitter(Split(a) + start.words, start.word);
    ScanWithEarlierWords(Split(a), start, b);
    var sb := Scan(start, b);
    if sb.word != [] {
      assert Split(a) + sb.words + [sb.word] == Split(a) + (sb.words + [sb.word]);
    }
  }

  /** Words found before the scan starts stay in front of everything it finds. */
  lemma {:induction false} ScanWithEarlierWords(earlier: seq<string>, st: Splitter, s: string)
    ensures Scan(Splitter(earlier + st.words, st.word), s)
         == Splitter(earlier + Scan(st, s).words, Scan(st, s).word)
    decreases |s|
  {
    if s != [] {
      var st' := Feed(st, s[0]);
      if IsSpace(s[0]) && st.word != [] {
        assert earlier + st.words + [st.word] == earlier + (st.words + [st.word]);
      }
      assert Feed(Splitter(earlier + st.words, st.word), s[0]) == Splitter(earlier + st'.words, st'.word);
      ScanWithEarlierWords(earlier, st', s[1..]);
    }
  }

  // ---------------------------------------------------------------------
  // Padding and stripping

  /** Stripping trailing `a`s undoes padding with `a`s, unless the text
      itself ended in `a`. */
  lemma {:induction false} RightStripUndoesPadding(s: string, a: char, k: nat)
    requires s == [] || s[|s| - 1] != a
    ensures RightStrip(s + Repeat(a, k), a) == s
    decreases k
  {
    if k > 0 {
      var t := s + Repeat(a, k);
      assert t[..|t| - 1] == s + Repeat(a, k - 1);
      RightStripUndoesPadding(s, a, k - 1);
    } else {
      assert s + Repeat(a, 0) == s;
    }
  }

  /** What `rstrip` cut off is a run of the stripped character. */
  lemma RightStripLeavesPadding(s: string, a: char)
    ensures s == RightStrip(s, a) + Repeat(a, |s| - |RightStrip(s, a)|)
  {
  }

  // ---------------------------------------------------------------------
  // Lengths

  lemma {:induction false} JoinAppendLength(ws: seq<string>, w: string)
    ensures |Join(" ", ws + [w])| == |Join(" ", ws)| + (if ws == [] then 0 else 1) + |w|
    decreases |ws|
  {
    if ws == [] {
      assert ws + [w] == [w];
    } else if |ws| == 1 {
      assert ws + [w] == [ws[0], w];
      assert (ws + [w])[1..] == [w];
    } else {
      assert (ws + [w])[1..] == ws[1..] + [w];
      JoinAppendLength(ws[1..], w);
    }
  }

  /** The length `Join(" ", ...)` will have once the current word is closed,
      counting a separator after every word already closed. */
  function Pending(st: Splitter): nat {
    |Join(" ", st.words)| + (if st.words == [] then 0 else 1) + |st.word|
  }

  lemma {:induction false} ScanLength(st: Splitter, s: string)
    ensures Pending(Scan(st, s)) <= Pending(st) + |s|
    ensures |Join(" ", Flush(Scan(st, s)).words)| <= Pending(st) + |s|
    decreases |s|
  {
    if s != [] {
      if IsSpace(s[0]) && st.word != [] {
        JoinAppendLength(st.words, st.word);
      }
      ScanLength(Feed(st, s[0]), s[1..]);
    } else if st.word != [] {
      JoinAppendLength(st.words, st.word);
    }
  }

  /** Splitting and re-joining with single spaces never makes text longer. */
  lemma SplitJoinShrinks(s: string)
    ensures |Join(" ", Split(s))| <= |s|
  {
    ScanLength(Splitter([], []), s);
  }
}

=== FILE: triangle_classifier.dfy ===
/** `classify_triangle` of triangle_classifier.py: no upper bound on the
    sides, a right-triangle test on every pair of sides, and a shape label
    followed by a space and an optional "Right". */
module TriangleClassifier {
  import opened TriangleSpec
  import TriangleHw05

  const InvalidText: string := "Invalid input"
  const NotATriangleText: string := "Not a triangle"
  const RightText: string := "Right"

  /** What follows the shape label and its space. */
  function Suffix(a: int, b: int, c: int): (s: string)
    // The ensures only unfold the body; SuffixMatchesSortedTest says what it means.
    ensures s == RightText <==> AnyPairRight(a, b, c)
    ensures s == [] <==> !AnyPairRight(a, b, c)
  {
    if AnyPairRight(a, b, c) then RightText else []
  }

  /** For positive sides the suffix is "Right" exactly when the sorted
      sides pass the hw classifiers' test: the two shorter sides' squares
      add up to the longest side's square. */
  lemma SuffixMatchesSortedTest(a: int, b: int, c: int)
    requires AllPositive(a, b, c)
    ensures Suffix(a, b, c) == RightText <==> SortedRight(a, b, c)
  {
    SortedRightIffAnyPairRight(a, b, c);
  }

  /** Only integer sides are modelled: `isinstance` has nothing to reject,
      and float sides are left out. */
  function ClassifyTriangle(a: int, b: int, c: int): (s: string)
    ensures s == InvalidText <==> !AllPositive(a, b, c)
    ensures s == NotATriangleText <==> AllPositive(a, b, c) && !IsTriangle(a, b, c)
    ensures AllPositive(a, b, c) && IsTriangle(a, b, c) ==>
      && (AllEqual(a, b, c) ==> s == "Equilateral ")
      && (SomePairEqual(a, b, c) && !AllEqual(a, b, c) ==> s == "Isosceles ")
      && (!SomePairEqual(a, b, c) ==> s == "Scalene " + Suffix(a, b, c))
  {
    if !(a > 0 && b > 0 && c > 0) then InvalidText
    else if a + b <= c || a + c <= b || b + c <= a then NotATriangleText
    else
      assert SomePairEqual(a, b, c) ==> !AnyPairRight(a, b, c) by {
        if SomePairEqual(a, b, c) {
          TwoEqualSidesNeverRight(a, b, c);
        }
      }
      var rightTriangle := if a * a + b * b == c * c || a * a + c * c == b * b || b * b + c * c == a * a
                           then "Right" else "";
      var s := if a == b == c then "Equilateral " + rightTriangle
               else if a == b || a == c || b == c then "Isosceles " + rightTriangle
               else "Scalene " + rightTriangle;
      assert s[1] in "qsc" && s[1] != InvalidText[1] && s[1] != NotATriangleText[1];
      s
  }

  predicate EndsWithRight(s: string) {
    |s| >= |RightText| && s[|s| - |RightText|..] == RightText
  }

  /** A valid triangle's result is a shape label, a space and then
      "Right" exactly when some two sides' squares add to the third's. */
  lemma ShapeThenSuffix(a: int, b: int, c: int)
    requires AllPositive(a, b, c) && IsTriangle(a, b, c)
    ensures var s := ClassifyTriangle(a, b, c);
      exists shape :: shape in ["Equilateral", "Isosceles", "Scalene"]
        && s == shape + " " + Suffix(a, b, c)
    ensures EndsWithRight(ClassifyTriangle(a, b, c)) <==> AnyPairRight(a, b, c)
  {
    var s := ClassifyTriangle(a, b, c);
    if AllEqual(a, b, c) {
      TwoEqualSidesNeverRight(a, b, c);
      assert s == "Equilateral" + " " + Suffix(a, b, c);
      assert s[|s| - 1] == ' ';
    } else if SomePairEqual(a, b, c) {
      TwoEqualSidesNeverRight(a, b, c);
      assert s == "Isosceles" + " " + Suffix(a, b, c);
      assert s[|s| - 1] == ' ';
    } else {
      assert s == "Scalene" + " " + Suffix(a, b, c);
      if AnyPairRight(a, b, c) {
        assert s == "Scalene Right";
      } else {
        assert s[|s| - 1] == ' ';
      }
    }
  }

  /** An equilateral triangle never gets the "Right" suffix. */
  lemma EquilateralHasNoSuffix(x: int)
    requires x > 0
    ensures ClassifyTriangle(x, x, x) == "Equilateral "
  {
  }

  /** The result does not depend on the order of the sides. */
  lemma ClassifyTrianglePermutationInvariant(a: int, b: int, c: int)
    ensures var s := ClassifyTriangle(a, b, c);
      && s == ClassifyTriangle(a, c, b) && s == ClassifyTriangle(b, a, c)
      && s == ClassifyTriangle(b, c, a) && s == ClassifyTriangle(c, a, b)
      && s == ClassifyTriangle(c, b, a)
  {
  }

  /** For sides in 1..200 that form a triangle, this classifier reports
      "Right" exactly when the hw-05 classifier returns 'Right'. */
  lemma RightAgreesWithHw05(a: int, b: int, c: int)
    requires AllInRange(a, b, c) && IsTriangle(a, b, c)
    ensures EndsWithRight(ClassifyTriangle(a, b, c)) <==> TriangleHw05.ClassifyTriangle(a, b, c) == Right
  {
    ShapeThenSuffix(a, b, c);
  }

  /** There is no upper bound: sides beyond 200 are classified, where the
      hw classifiers reject them. */
  lemma NoUpperBound()
    ensures ClassifyTriangle(300, 400, 500) == "Scalene Right"
    ensures TriangleHw05.ClassifyTriangle(300, 400, 500) == InvalidInput
  {
    assert AnyPairRight(300, 400, 500);
  }

  /** The integer cases of test_triangle_classifier.py. */
  lemma TestSuiteCases()
    ensures ClassifyTriangle(5, 5, 5) == "Equilateral "
    ensures ClassifyTriangle(5, 5, 8) == "Isosceles "
    ensures ClassifyTriangle(3, 4, 5) == "Scalene Right"
    ensures ClassifyTriangle(6, 8, 10) == "Scalene Right"
    ensures ClassifyTriangle(1, 2, 3) == "Not a triangle"
    ensures ClassifyTriangle(-1, 2, 3) == "Invalid input"
    ensures ClassifyTriangle(0, 2, 3) == "Invalid input"
  {
    assert AnyPairRight(3, 4, 5) && AnyPairRight(6, 8, 10);
  }
}

=== FILE: triangle_hw02a.dfy ===
/** `classifyTriangle` of hw-02a/Triangle.py: separate upper and lower bound
    checks, then the triangle inequality, then the right-triangle test on
    the sorted sides, then the count of equal sides. */
module TriangleHw02a {
  import opened TriangleSpec

  /** The sides are Dafny integers, so the `isinstance` guard has nothing
      to reject. */
  function ClassifyTriangle(a: int, b: int, c: int): (l: Label)
    ensures Classified(a, b, c, l)
  {
    if a > 200 || b > 200 || c > 200 then InvalidInput
    else if a <= 0 || b <= 0 || c <= 0 then InvalidInput
    else if a >= b + c || b >= a + c || c >= a + b then NotATriangle
    else
      assert SortedRight(a, b, c) <==> AnyPairRight(a, b, c) by {
        SortedRightIffAnyPairRight(a, b, c);
      }
      assert SomePairEqual(a, b, c) ==> !AnyPairRight(a, b, c) by {
        if SomePairEqual(a, b, c) {
          TwoEqualSidesNeverRight(a, b, c);
        }
      }
      var sides := Sort3(a, b, c);
      if sides[0] * sides[0] + sides[1] * sides[1] == sides[2] * sides[2] then Right
      else if a == b && b == c then Equilateral
      else if a == b || b == c || a == c then Isosceles
      else Scalene
  }

  /** The label does not depend on the order of the sides. */
  lemma ClassifyTrianglePermutationInvariant(a: int, b: int, c: int)
    ensures var l := ClassifyTriangle(a, b, c);
      && l == ClassifyTriangle(a, c, b) && l == ClassifyTriangle(b, a, c)
      && l == ClassifyTriangle(b, c, a) && l == ClassifyTriangle(c, a, b)
      && l == ClassifyTriangle(c, b, a)
  {
    var l := ClassifyTriangle(a, b, c);
    ClassifiedIsSymmetric(a, b, c, l);
    ClassifiedIsUnique(a, c, b, l, ClassifyTriangle(a, c, b));
    ClassifiedIsUnique(b, a, c, l, ClassifyTriangle(b, a, c));
    ClassifiedIsSymmetric(b, a, c, l);
    ClassifiedIsUnique(b, c, a, l, ClassifyTriangle(b, c, a));
    ClassifiedIsSymmetric(a, c, b, l);
    ClassifiedIsUnique(c, a, b, l, ClassifyTriangle(c, a, b));
    ClassifiedIsSymmetric(b, c, a, l);
    ClassifiedIsUnique(c, b, a, l, ClassifyTriangle(c, b, a));
  }

  /** The integer cases of hw-02a/TestTriangle.py. */
  lemma TestSuiteCases()
    ensures ClassifyTriangle(3, 4, 5) == Right && ClassifyTriangle(5, 3, 4) == Right
    ensures ClassifyTriangle(6, 8, 10) == Right && ClassifyTriangle(8, 15, 17) == Right
    ensures ClassifyTriangle(1, 1, 1) == Equilateral && ClassifyTriangle(200, 200, 200) == Equilateral
    ensures ClassifyTriangle(201, 150, 150) == InvalidInput && ClassifyTriangle(-1, 2, 3) == InvalidInput
    ensures ClassifyTriangle(0, 1, 2) == InvalidInput
    ensures ClassifyTriangle(1, 1, 3) == NotATriangle && ClassifyTriangle(2, 4, 2) == NotATriangle
    ensures ClassifyTriangle(1, 1, 2) == NotATriangle
    ensures ClassifyTriangle(2, 2, 3) == Isosceles && ClassifyTriangle(3, 4, 3) == Isosceles
    ensures ClassifyTriangle(3, 4, 6) == Scalene && ClassifyTriangle(5, 7, 9) == Scalene
  {
  }
}

=== FILE: triangle_hw05.dfy ===
/** `classify_triangle` of hw-05/triangle.py: the condensed rewrite of
    hw-02a with one combined range check and `** 2` for squaring. */
module TriangleHw05 {
  import opened TriangleSpec
  import TriangleHw02a

  /** The `isinstance` part of the range check has nothing to reject on
      Dafny integers; `x ** 2` on an integer is `x * x`. */
  function ClassifyTriangle(a: int, b: int, c: int): (l: Label)
    ensures Classified(a, b, c, l)
  {
    if !(0 < a <= 200 && 0 < b <= 200 && 0 < c <= 200) then InvalidInput
    else if a >= b + c || b >= a + c || c >= a + b then NotATriangle
    else
      assert SortedRight(a, b, c) <==> AnyPairRight(a, b, c) by {
        SortedRightIffAnyPairRight(a, b, c);
      }
      assert SomePairEqual(a, b, c) ==> !AnyPairRight(a, b, c) by {
        if SomePairEqual(a, b, c) {
          TwoEqualSidesNeverRight(a, b, c);
        }
      }
      var sides := Sort3(a, b, c);
      if sides[0] * sides[0] + sides[1] * sides[1] == sides[2] * sides[2] then Right
      else if a == b == c then Equilateral
      else if a == b || b == c || a == c then Isosceles
      else Scalene
  }

  /** The rewrite returns what hw-02a returns, for every integer triple. */
  lemma SameAsHw02a(a: int, b: int, c: int)
    ensures ClassifyTriangle(a, b, c) == TriangleHw02a.ClassifyTriangle(a, b, c)
  {
    ClassifiedIsUnique(a, b, c, ClassifyTriangle(a, b, c), TriangleHw02a.ClassifyTriangle(a, b, c));
  }

  /** The label does not depend on the order of the sides. */
  lemma ClassifyTrianglePermutationInvariant(a: int, b: int, c: int)
    ensures var l := ClassifyTriangle(a, b, c);
      && l == ClassifyTriangle(a, c, b) && l == ClassifyTriangle(b, a, c)
      && l == ClassifyTriangle(b, c, a) && l == ClassifyTriangle(c, a, b)
      && l == ClassifyTriangle(c, b, a)
  {
    SameAsHw02a(a, b, c);
    SameAsHw02a(a, c, b);
    SameAsHw02a(b, a, c);
    SameAsHw02a(b, c, a);
    SameAsHw02a(c, a, b);
    SameAsHw02a(c, b, a);
    TriangleHw02a.ClassifyTrianglePermutationInvariant(a, b, c);
  }
}

=== FILE: triangle_spec.dfy ===
/** What the triangle classifiers decide, stated once: the labels they
    return, the order `sorted` puts three sides in, and the conditions each
    label stands for. */
module TriangleSpec {

  /** The six strings `classifyTriangle` and `classify_triangle` return. */
  datatype Label = Equilateral | Isosceles | Scalene | NotATriangle | InvalidInput | Right

  function LabelText(l: Label): (t: string)
    ensures |t| > 0
  {
    match l
    case Equilateral => "Equilateral"
    case Isosceles => "Isosceles"
    case Scalene => "Scalene"
    case NotATriangle => "NotATriangle"
    case InvalidInput => "InvalidInput"
    case Right => "Right"
  }

  /** Different labels are different strings. */
  lemma LabelTextInjective(l: Label, m: Label)
    ensures LabelText(l) == LabelText(m) <==> l == m
  {
    if l != m {
      var t, u := LabelText(l), LabelText(m);
      assert t[0] != u[0] || t[1] != u[1] || |t| != |u|;
    }
  }

  // ---------------------------------------------------------------------
  // sorted([a, b, c])

  /** `s` lists a, b and c in some order: one of the six arrangements. */
  predicate IsArrangement(s: seq<int>, a: int, b: int, c: int) {
    || s == [a, b, c] || s == [a, c, b] || s == [b, a, c]
    || s == [b, c, a] || s == [c, a, b] || s == [c, b, a]
  }

  function Sort3(a: int, b: int, c: int): (s: seq<int>)
    ensures |s| == 3 && s[0] <= s[1] <= s[2]
    ensures IsArrangement(s, a, b, c)
  {
    if a <= b then
      if b <= c then [a, b, c]
      else if a <= c then [a, c, b]
      else [c, a, b]
    else
      if a <= c then [b, a, c]
      else if b <= c then [b, c, a]
      else [c, b, a]
  }

  /** An ordered arrangement of three values is unique: every sorted
      arrangement of (a, b, c) is `Sort3(a, b, c)`. */
  lemma SortedArrangementIsSort3(s: seq<int>, a: int, b: int, c: int)
    requires |s| == 3 && s[0] <= s[1] <= s[2]
    requires IsArrangement(s, a, b, c)
    ensures s == Sort3(a, b, c)
  {
  }

  /** Sorting does not depend on the order the sides were given in. */
  lemma Sort3Symmetric(a: int, b: int, c: int)
    ensures Sort3(a, b, c) == Sort3(b, a, c) == Sort3(a, c, b)
  {
    SortedArrangementIsSort3(Sort3(a, b, c), b, a, c);
    SortedArrangementIsSort3(Sort3(a, b, c), a, c, b);
  }

  // ---------------------------------------------------------------------
  // The conditions behind the labels

  predicate InRange(x: int) {
    0 < x <= 200
  }

  predicate AllInRange(a: int, b: int, c: int) {
    InRange(a) && InRange(b) && InRange(c)
  }

  predicate AllPositive(a: int, b: int, c: int) {
    a > 0 && b > 0 && c > 0
  }

  /** The strict triangle inequality on every side. */
  predicate IsTriangle(a: int, b: int, c: int) {
    a < b + c && b < a + c && c < a + b
  }

  /** The two shorter sides' squares add up to the longest side's square. */
  predicate SortedRight(a: int, b: int, c: int) {
    var s := Sort3(a, b, c);
    s[0] * s[0] + s[1] * s[1] == s[2] * s[2]
  }

  /** Some two sides' squares add up to the third side's square. */
  predicate AnyPairRight(a: int, b: int, c: int) {
    a * a + b * b == c * c || a * a + c * c == b * b || b * b + c * c == a * a
  }

  predicate AllEqual(a: int, b: int, c: int) {
    a == b && b == c
  }

  predicate SomePairEqual(a: int, b: int, c: int) {
    a == b || b == c || a == c
  }

  /** What a label means for three integer sides, for the two classifiers
      that bound the sides by 200. The right-triangle test comes first in
      the code, yet no right triangle with integer sides has two equal sides,
      so each shape label is exactly its count of equal sides. */
  predicate Classified(a: int, b: int, c: int, l: Label) {
    && (l == InvalidInput <==> !AllInRange(a, b, c))
    && (l == NotATriangle <==> AllInRange(a, b, c) && !IsTriangle(a, b, c))
    && (l == Right <==> AllInRange(a, b, c) && IsTriangle(a, b, c) && AnyPairRight(a, b, c))
    && (l == Equilateral <==> AllInRange(a, b, c) && AllEqual(a, b, c))
    && (l == Isosceles <==>
          AllInRange(a, b, c) && IsTriangle(a, b, c) && SomePairEqual(a, b, c) && !AllEqual(a, b, c))
    && (l == Scalene <==>
          AllInRange(a, b, c) && IsTriangle(a, b, c) && !AnyPairRight(a, b, c) && !SomePairEqual(a, b, c))
  }

  /** The conditions pick out exactly one label for every triple. */
  lemma ClassifiedIsUnique(a: int, b: int, c: int, l: Label, m: Label)
    requires Classified(a, b, c, l) && Classified(a, b, c, m)
    ensures l == m
  {
  }

  /** Swapping two sides changes none of the conditions. */
  lemma ClassifiedIsSymmetric(a: int, b: int, c: int, l: Label)
    requires Classified(a, b, c, l)
    ensures Classified(b, a, c, l) && Classified(a, c, b, l)
  {
  }

  // ---------------------------------------------------------------------
  // Arithmetic behind the right-triangle test

  lemma SquareMonotone(x: int, y: int)
    requires 0 < x && 0 < y
    ensures x < y <==> x * x < y * y
  {
    if x < y {
      assert x * x < x * y < y * y;
    } else {
      assert y * y <= y * x <= x * x;
    }
  }

  /** For positive sides, testing the sorted sides, as the `hw` classifiers
      do, and testing every pair, as `triangle_classifier.py` does, agree:
      the side whose square is the sum of the other two is the longest. */
  lemma SortedRightIffAnyPairRight(a: int, b: int, c: int)
    requires AllPositive(a, b, c)
    ensures SortedRight(a, b, c) <==> AnyPairRight(a, b, c)
  {
    var s := Sort3(a, b, c);
    if a * a + b * b == c * c {
      HypotenuseIsLongest(a, b, c);
      assert s == [a, b, c] || s == [b, a, c];
    } else if a * a + c * c == b * b {
      HypotenuseIsLongest(a, c, b);
      assert s == [a, c, b] || s == [c, a, b];
    } else if b * b + c * c == a * a {
      HypotenuseIsLongest(b, c, a);
      assert s == [b, c, a] || s == [c, b, a];
    }
  }

  lemma HypotenuseIsLongest(x: int, y: int, z: int)
    requires 0 < x && 0 < y && 0 < z && x * x + y * y == z * z
    ensures x < z && y < z
  {
    assert x * x < z * z && y * y < z * z by {
      assert 0 < x * x && 0 < y * y;
    }
    SquareMonotone(x, z);
    SquareMonotone(y, z);
  }

  lemma SquareOfOddIsOdd(k: int)
    ensures (2 * k + 1) * (2 * k + 1) == 2 * (2 * k * k + 2 * k) + 1
  {
  }

  lemma EvenSquareHasEvenRoot(z: int)
    requires (z * z) % 2 == 0
    ensures z % 2 == 0
  {
    if z % 2 == 1 {
      var k := z / 2;
      assert z == 2 * k + 1;
      SquareOfOddIsOdd(k);
    }
  }

  /** The square root of 2 is irrational: no positive integer x has
      x² + x² equal to a square. By descent — a solution forces both numbers
      even, and halving gives a smaller solution. */
  lemma {:induction false} NoIsoscelesRight(x: int, z: int)
    requires x > 0
    ensures x * x + x * x != z * z
    decreases x
  {
    if x * x + x * x == z * z {
      EvenSquareHasEvenRoot(z);
      var w := z / 2;
      assert z == 2 * w;
      assert x * x == 2 * (w * w);
      EvenSquareHasEvenRoot(x);
      var v := x / 2;
      assert x == 2 * v;
      assert w * w == v * v + v * v;
      NoIsoscelesRight(v, w);
    }
  }

  /** A triangle with two equal positive sides is never right. */
  lemma TwoEqualSidesNeverRight(a: int, b: int, c: int)
    requires AllPositive(a, b, c) && SomePairEqual(a, b, c)
    ensures !AnyPairRight(a, b, c)
  {
    assert 0 < a * a && 0 < b * b && 0 < c * c;
    if a == b {
      NoIsoscelesRight(a, c);
    } else if b == c {
      NoIsoscelesRight(b, a);
    } else {
      NoIsoscelesRight(a, b);
    }
  }
}
